=== FILE: README.md ===
# FTPMonitor reconciliation, modelled in Dafny

`FTPMonitor` (py_ftp_client_old.py) keeps a remote FTP server in step with a
local folder. It logs in and retries until a login succeeds. On every turn of
its polling loop it lists the remote root. It keeps as directories the
entries it can `cwd` into, and compares that snapshot with `prev_items`. When
the two differ, it records the new snapshot and uploads every local folder
that `prev_items` does not name. To upload a folder, it makes the folder with
`mkd` and then stores every file below it, at any depth. Every path goes to
the server with its backslashes turned into slashes.

This project models that logic as a sequential state machine:

- `Paths` (paths.dfy): the `replace('\\', '/')` normalisation and how a
  host reads a slash path.
- `LocalTree` (local_tree.dfy): the local root as the relative paths of its
  directories and files, in the host's own separator. It also defines the
  remote content that uploading a set of folders produces.
- `Transport` (transport.dfy): the remote store as a value. It holds the
  directory paths, the stored files, the session's current directory and a
  script of failures. Each transport call consumes one script entry: `true`
  makes that call raise an `ftplib` error that is not a permission error.
  `false`, or an exhausted script, lets the call act on the store. Permission
  errors come from the store itself: `cwd` into something that is not a
  directory, `mkd` of a path the server already holds as a directory or a
  file, or `storbinary` onto a directory.
- `Monitor` (monitor.dfy): the class `FtpMonitor`, with the fields
  `running`, `connected` (`self.ftp is not None`) and `prevItems`, the remote
  store as seen through the session, and the local tree. One call of
  `PollOnce` is one turn of the polling loop in `list_directories`.
- `Scenarios` (scenarios.dfy): whole passes, proved from the contracts alone.

Python iterates sets, and `os.walk` yields files, in an order the program
does not choose. The model picks elements with `:|`, so every contract holds
for any order. Every upload states how many script entries it consumed, and
the uploads of a pass consume at most one `mkd` and one store per local file
for each planned folder. When none of the entries the pass consumes is a
failure, the contracts state the resulting remote store exactly, whatever
failures the script holds further on. Otherwise every planned folder whose
remote form the server already holds, as a directory or as a file, still gets
a permission error from `mkd`. The new directories are exactly the remote
forms of the planned folders whose `mkd` succeeded. One folder's files are
stated exactly up to the set of files whose own store call failed, and each
such file is charged to a failure of the script. Across folders the files are
bounded: nothing is removed, and every file written holds the bytes of the
local file it came from.

One might expect a pass against an empty remote root to upload every local
folder. The code does not do that, and the model follows the code. An empty
root gives an empty snapshot. That snapshot equals the initial empty
`prev_items`, so the polling loop uploads nothing
(`Scenarios.EmptyRemoteUploadsNothing`). Local folder paths are also
not normalised before they are compared with the remote names. Only the
`mkd` and `storbinary` paths are.

## Model

| member | source | states |
|---|---|---|
| Paths.Normalise | py_ftp_client_old.py:132 | the remote form of a path has the same length as the path |
| Paths.NormaliseAt | py_ftp_client_old.py:146 | position by position, exactly the backslashes become slashes and every other character stays |
| Paths.NormaliseNoBackslash | py_ftp_client_old.py:138 | no backslash is left after normalisation |
| Paths.NormaliseIdempotent | py_ftp_client_old.py:138-146 | normalising twice gives the same as normalising once, so `upload_file` re-normalising the path from `upload_folder` changes nothing |
| Paths.NormaliseFixesSlashPaths | py_ftp_client_old.py:132 | a path without backslashes is sent unchanged |
| Paths.ToNative | py_ftp_client_old.py:145 | the string the host opens for a slash path has the same length as that path |
| Paths.NativeRoundTrip | py_ftp_client_old.py:137-149 | a file path written with the host separator is found again by the existence check after normalisation |
| Paths.NormaliseInjective | py_ftp_client_old.py:132 | two distinct host-form paths never share a remote form |
| LocalTree.FilesIn | py_ftp_client_old.py:135-137 | the files a walk of the folders visits are files of the local tree |
| LocalTree.TargetMapExact | py_ftp_client_old.py:135-139 | uploading the folders stores every file below them, at any depth, under its normalised root-relative path with its own bytes, and stores nothing else |
| LocalTree.TargetMapAdd | py_ftp_client_old.py:107-109 | uploading one more folder adds exactly that folder's files to what the others store |
| LocalTree.StoredFromTrans | py_ftp_client_old.py:107-109 | two rounds of uploads that each only add local files compose into one such round |
| Transport.TopDirs | py_ftp_client_old.py:41-45 | the directories the root listing can enter are among the store's directories |
| Transport.Login | py_ftp_client_old.py:25-26 | a login attempt succeeds exactly when its call does not fail, and then the session starts at the root; a failed one is a transport error that leaves the session where it was; the store is untouched |
| Transport.Nlst | py_ftp_client_old.py:41 | the listing succeeds exactly when its call does not fail; it names only entries directly inside the current directory that the server holds as a directory or a file; a failed one returns nothing; the store is untouched |
| Transport.ChildrenExact | py_ftp_client_old.py:41 | a successful listing names every entry directly inside the current directory, directories and files alike, and nothing else |
| Transport.Cwd | py_ftp_client_old.py:44 | `cwd` succeeds exactly when the call does not fail and the resolved path is a directory; a failed call is a transport error, any other refusal a permission error; only a success moves the session |
| Transport.CwdUp | py_ftp_client_old.py:46 | `cwd('..')` succeeds exactly when the call does not fail, and then moves the session to the parent directory |
| Transport.Mkd | py_ftp_client_old.py:133 | `mkd` succeeds exactly when the call does not fail and the path is held neither as a directory nor as a file; a failed call is a transport error; only a success adds the directory; files and session are untouched |
| Transport.Stor | py_ftp_client_old.py:154 | `storbinary` succeeds exactly when the call does not fail and the path is not a directory, and then writes the bytes under the path; otherwise the files are unchanged |
| Transport.LeadingFaultsOfScript | py_ftp_client_old.py:21-31 | a script of N failures followed by a success starts with exactly N failures |
| Transport.LeadingFaultsAt | py_ftp_client_old.py:22-31 | after k of the leading failures, the next login attempt fails exactly when k is below their number |
| Transport.ParentOfTopName | py_ftp_client_old.py:46 | `cwd('..')` from a directory of the root returns to the root |
| LocalTree.ReadLocalFile | py_ftp_client_old.py:149-153 | a file the walk yields passes the existence check under its remote form, and opening that path reads the file's own bytes |
| LocalTree.FolderNotFile | py_ftp_client_old.py:132-138 | a local folder and a local file never share a remote form |
| Monitor.FtpMonitor.constructor | py_ftp_client_old.py:10-19 | a new monitor is running, has no session and has an empty `prev_items` |
| Monitor.FtpMonitor.Connect | py_ftp_client_old.py:21-31 | does nothing when not running; otherwise, with N leading failures, it makes exactly N+1 attempts, consumes that many script entries and ends connected at the root |
| Monitor.FtpMonitor.ScanRoot | py_ftp_client_old.py:39-49 | the listing completes exactly when none of its calls fails: one `nlst`, one `cwd` per root entry and one `cwd('..')` per root directory; a completed listing has made exactly those calls, yields exactly the root entries `cwd` can enter (files are skipped) and leaves a valid session at the root; an incomplete one has stopped right after its first failing call; the store is untouched |
| Monitor.FtpMonitor.KeepDirectories | py_ftp_client_old.py:42-49 | probes the listed names in any order; it completes exactly when none of the probe calls fails, and then keeps exactly the names that are directories of the store and is back at the root; otherwise it has stopped right after the first failing call; the store is untouched |
| Monitor.FtpMonitor.Probe | py_ftp_client_old.py:43-49 | one listed name: `cwd` into it and, when that succeeds, `cwd('..')` back; a permission error marks a name that is not a directory and is swallowed; one call for a non-directory, two for a directory; it reports failure exactly when one of its calls failed |
| Monitor.FtpMonitor.GetLocalDirectories | py_ftp_client_old.py:116-121 | returns every local directory at any depth, in host form and not normalised |
| Monitor.FtpMonitor.GetServerDirectories | py_ftp_client_old.py:123-127 | returns a set equal to its argument |
| Monitor.FtpMonitor.UploadFile | py_ftp_client_old.py:143-157 | a missing local file makes no call and changes nothing; otherwise exactly one store call, which writes the local bytes under the normalised path exactly when the call does not fail and that path is not a server directory, and otherwise leaves the remote files unchanged; no error escapes |
| Monitor.FtpMonitor.UploadFolder | py_ftp_client_old.py:129-141 | `mkd` succeeds exactly when the call does not fail and the normalised folder is held neither as a directory nor as a file; a failed `mkd` stores none of the folder's files; after a successful one the files are exactly the old ones plus every file of the folder with its local bytes, except those whose own store call failed (`unsent`) and those landing on a server directory; `unsent` holds no more files than the failures its calls used up; it consumes exactly one script entry for `mkd` and, after a successful one, one per file; when none of those entries is a failure, `unsent` is empty and the files are stated exactly |
| Monitor.FtpMonitor.UploadFiles | py_ftp_client_old.py:135-139 | the walk below a made folder: one store call per file, a failing call skips only that file and the walk goes on; the files end as the old ones plus every walked file except the skipped ones and those refused as directories; every skipped file used up a failure of its own; it consumes exactly one script entry per file, and when none of them is a failure nothing is skipped |
| Monitor.FtpMonitor.UploadDiffs | py_ftp_client_old.py:99-109 | uploads exactly the local directories not in `prev_items`, whatever argument it gets; one folder's failure does not stop the rest; the store gains exactly the remote forms of the planned folders whose `mkd` went through; every planned folder whose remote form the server already held, as a directory or a file, gets a permission error from `mkd`, and each planned folder the server did not hold but which was not made used up a failure of the script of its own; only planned folders' local files are written; nothing changes when every local directory is in `prev_items`; it consumes `calls` script entries, at most one `mkd` and one store per local file for each planned folder; when none of those entries is a failure, exactly the planned folders the server did not hold are made, and the store gains exactly their files, except those landing on a directory that was already there |
| Monitor.FtpMonitor.PollOnce | py_ftp_client_old.py:33-65 | a pass is abandoned exactly when one of its listing calls fails (counted after the login attempts); an abandoned pass leaves `prev_items` and the store unchanged, drops the session and has consumed the script up to and including its first failing listing call; a script without failures never abandons a pass; a completed pass records the root snapshot; an unchanged snapshot uploads nothing; a changed one uploads the local directories the snapshot does not name, gives a permission error for every one whose remote form the server already held, adds exactly the remote forms of those whose `mkd` went through, and misses no more new folders than the script holds failures; the uploads consume the script right after the listing's calls, at most one `mkd` and one store per local file for each planned folder, and when none of the entries consumed up to their end is a failure, the folders made and the files stored are stated exactly (`UploadedAfterListing`) |
| Monitor.FtpMonitor.ListRoot | py_ftp_client_old.py:36-49 | connects when there is no session, then lists the root; it completes exactly when none of the listing calls fails, and then it has made exactly those calls and found exactly the root entries `cwd` can enter; otherwise it has stopped right after its first failing call; the store is untouched |
| Monitor.FtpMonitor.UploadChanges | py_ftp_client_old.py:52-59 | a changed snapshot is recorded in `prev_items` and `upload_diffs` runs on it, with the outcome `UploadedAfterListing` states |
| Monitor.FtpMonitor.VisitFolder | py_ftp_client_old.py:107-109 | one turn of the loop of `upload_diffs`: `upload_folder` on one more planned folder keeps the loop invariant, consumes the script entries of that call and stays within the budget of calls |
| Monitor.ChangedPass | py_ftp_client_old.py:52-59 | the outcome of `upload_diffs`, stated against the store before the listing and the script before the pass, is what a changed pass promises |
| Monitor.NothingPlannedKeepsStore | py_ftp_client_old.py:52-59 | a changed snapshot that leaves no local folder to upload changes neither the directories nor the files of the server and consumes no script entry after the listing |
| Monitor.DiffsDone | py_ftp_client_old.py:99-109 | once every local folder is visited, the loop invariant gives the outcome `upload_diffs` promises: the folders made, the failures charged, the files written and, when the entries consumed hold no failure, the exact store |
| Monitor.FolderCallsBound | py_ftp_client_old.py:129-139 | one `upload_folder` makes at most one call more than there are local files |
| Monitor.CallsBound | py_ftp_client_old.py:107-109 | one more folder upload keeps the calls of `upload_diffs` within the budget of the folders planned so far |
| Monitor.BudgetProduct | py_ftp_client_old.py:107-109 | the budget of calls is the number of planned folders times one more than the number of local files |
| Monitor.FreshStep | py_ftp_client_old.py:107-109 | a folder not yet planned never shares its remote form with a planned one, so in a run without failures its `mkd` succeeds exactly when that form was not held before the run |
| Monitor.TakenStep | py_ftp_client_old.py:107-109 | the uploads of earlier folders in a run never take the remote form of a folder not yet planned, so whether its `mkd` is refused is decided by the store before the run |
| Monitor.FailedStep | py_ftp_client_old.py:107-109 | in a run without failures, exactly the planned folders whose remote form the store already held are refused |
| Monitor.UploadStep | py_ftp_client_old.py:107-109 | one folder upload keeps the file part of the loop invariant of `upload_diffs`: only planned folders' local files are written, and without failures the store is exactly the old one plus the new planned folders and their files |
| Monitor.DirsStep | py_ftp_client_old.py:107-109 | one folder upload keeps the directory part of that invariant: the store holds the old directories plus the remote forms of the planned folders that were not refused |
| Monitor.PaidStep | py_ftp_client_old.py:107-109 | a refused `mkd` of a folder the server did not hold can only come from a failure of the script, since no other planned folder and no uploaded file shares its remote form |
| Monitor.DiffsStep | py_ftp_client_old.py:107-109 | one `upload_folder` call keeps the whole loop invariant of `upload_diffs` |
| Monitor.FilesStep | py_ftp_client_old.py:107-109 | in a run without failures, one folder upload adds exactly that folder's files, except those landing on a directory that was already there |
| Monitor.WalkStep | py_ftp_client_old.py:136-139 | one file of the walk keeps the loop invariant of `upload_folder`: a failed store joins `unsent`, a refused one changes nothing, otherwise the file's bytes land under its remote form |
| Monitor.NestedFolderAlwaysPlanned | py_ftp_client_old.py:116-127 | a nested local folder is never in a snapshot of a root whose names hold no backslash, so every changed pass plans it again |
| Monitor.UploadedDirsHaveNoBackslash | py_ftp_client_old.py:132-133 | the directories the uploads create hold no backslash |
| Scenarios.UploadMissingFolder | py_ftp_client_old.py:52-59 | with `B` on the server and `A\x.txt` locally, the first pass records `{B}` and creates `A` and `A/x.txt` |
| Scenarios.LateFailureUnreached | py_ftp_client_old.py:52-59 | a failure in the script after the entries a pass consumes does not stop the empty local folder `A` from being made |

## Left out

- Sockets, `ftplib` protocol details, `login`, `quit` and the byte streaming of `storbinary` are left out. Each transport call is one step on the store value that either succeeds or fails.
- `time.sleep` is left out; time has no meaning in the model.
- The poll thread and the watchdog handlers (`LocalFileEventHandler`) are left out, and so is their unlocked sharing of `self.ftp` and `prev_items`. Each handler's effect is one `upload_diffs` call, which `FtpMonitor.UploadDiffs` models.
- The watchdog `Observer`, `start_monitoring`, `stop_monitoring`, the keyboard handlers and the module-level start-up code are left out. Nothing in the model sets `running` to false.
- The endless `while self.running` loop of `list_directories` is modelled one turn at a time (`PollOnce`).
- `print` logging and the commented-out code are left out.
- `os.walk` and `os.path.relpath` are given as the tree's sets of relative paths. Reading a local file never fails.
- The local tree is fixed for the length of a pass, so a file the walk yields is never missing when it is uploaded. A file removed between the `os.walk` of `upload_folder` and the existence check of `upload_file`, which the source skips before it goes on to the next file, is not modelled; `FtpMonitor.UploadFile` states that skip for a call on its own.
- Monitor.FtpMonitor.Connect: a login attempt is one call. A connection that opens but then fails to log in is not told apart from one that never opens.
- Monitor.FtpMonitor.Connect: the script is finite and a call past its end succeeds, so the model always connects. Against a server that never accepts, the source's `while self.running` loop never ends; that case is not modelled.
- A watchdog handler can call `upload_diffs` while `self.ftp` is `None`. `self.ftp.mkd` then raises `AttributeError`, which `except ftplib.all_errors` does not catch, and the handler thread dies. That case is not modelled: `FtpMonitor.UploadDiffs` requires a session.
- Monitor.FtpMonitor.ScanRoot: the failures in the script never act as permission errors. A refused `cwd('..')`, which would leave the session inside a subdirectory, is therefore not modelled.
- Monitor.FtpMonitor.UploadFolder: the server is not modelled as checking that parent directories exist for `mkd` and `storbinary`.
- Monitor.FtpMonitor.UploadDiffs: when a failure falls among the entries the run consumes, the directories are stated exactly but the files are only bounded: every file written is a planned folder's local file. Each folder's files are stated exactly by `UploadFolder`, up to its `unsent` set, but the loop does not carry those sets from folder to folder. The number of entries consumed is bounded, not stated exactly.
- Monitor.FtpMonitor.PollOnce: when a failure falls among the entries the uploads consume, the files uploaded are bounded rather than stated exactly, as for `UploadDiffs`.
- Local trees whose paths mix separators, such as a backslash in a file name on a slash host, are excluded by `WellFormed`.

=== FILE: local_tree.dfy ===
/** The monitored local directory, as the relative paths `os.walk` and
    `os.path.relpath` would produce for it, and the remote content a set of
    folder uploads derives from it. */
module LocalTree {
  import opened Paths

  type Bytes = seq<bv8>

  /** The local root: the host separator, every directory below the root (at
      any depth) and every file below it with its bytes, all as relative
      paths in the host's own form. */
  datatype Local = Local(sep: char, dirs: set<string>, files: map<string, Bytes>)

  ghost predicate WellFormed(l: Local)
  {
    (l.sep == '/' || l.sep == '\\') &&
    l.dirs !! l.files.Keys &&
    (forall d :: d in l.dirs ==> HostClean(d, l.sep)) &&
    (forall f :: f in l.files ==> HostClean(f, l.sep))
  }

  /** `f` lies below the folder `folder`, at any depth. */
  predicate Under(f: string, folder: string, sep: char)
  {
    |folder| < |f| && f[..|folder|] == folder && f[|folder|] == sep
  }

  /** The files a walk of any of the `folders` visits. */
  function FilesIn(l: Local, folders: set<string>): (r: set<string>)
    ensures r <= l.files.Keys
  {
    set f | f in l.files && exists folder :: folder in folders && Under(f, folder, l.sep)
  }

  /** `os.path.exists(os.path.join(local_path, p))` for a file. */
  predicate LocalExists(l: Local, p: string)
  {
    ToNative(p, l.sep) in l.files
  }

  /** The bytes `open(os.path.join(local_path, p), 'rb')` yields. */
  function LocalRead(l: Local, p: string): Bytes
    requires LocalExists(l, p)
  {
    l.files[ToNative(p, l.sep)]
  }

  /** The file the walk yields as `f` is found again, with its own bytes,
      through the remote form `upload_file` is given. */
  lemma ReadLocalFile(l: Local, f: string)
    requires WellFormed(l) && f in l.files
    ensures LocalExists(l, Normalise(f)) && LocalRead(l, Normalise(f)) == l.files[f]
  {
    NativeRoundTrip(f, l.sep);
  }

  /** A local folder and a local file never share a remote form. */
  lemma FolderNotFile(l: Local, d: string, f: string)
    requires WellFormed(l) && d in l.dirs && f in l.files
    ensures Normalise(d) != Normalise(f)
  {
    if Normalise(d) == Normalise(f) {
      NormaliseInjective(d, f, l.sep);
    }
  }

  function NormSet(paths: set<string>): (r: set<string>)
    ensures forall p :: p in paths ==> Normalise(p) in r
  {
    set p | p in paths :: Normalise(p)
  }

  /** What storing each of `remote` that exists locally, with its local bytes, amounts to. */
  function ReadMap(l: Local, remote: set<string>): (m: map<string, Bytes>)
    ensures m.Keys <= remote
  {
    map q | q in remote && LocalExists(l, q) :: LocalRead(l, q)
  }

  /** The remote files a complete upload of `folders` stores. */
  function TargetMap(l: Local, folders: set<string>): map<string, Bytes>
  {
    ReadMap(l, NormSet(FilesIn(l, folders)))
  }

  /** Every file below one of the folders is stored under its normalised
      relative path, with its own bytes, and nothing else is stored. */
  lemma TargetMapExact(l: Local, folders: set<string>)
    requires WellFormed(l)
    ensures forall f :: f in FilesIn(l, folders) ==>
      Normalise(f) in TargetMap(l, folders) && TargetMap(l, folders)[Normalise(f)] == l.files[f]
    ensures forall q :: q in TargetMap(l, folders) ==> exists f :: f in FilesIn(l, folders) && q == Normalise(f)
  {
    forall f | f in FilesIn(l, folders)
      ensures Normalise(f) in TargetMap(l, folders) && TargetMap(l, folders)[Normalise(f)] == l.files[f]
    {
      NativeRoundTrip(f, l.sep);
    }
  }

  lemma ReadMapUnion(l: Local, a: set<string>, b: set<string>)
    ensures ReadMap(l, a + b) == ReadMap(l, a) + ReadMap(l, b)
  {
    var lhs, rhs := ReadMap(l, a + b), ReadMap(l, a) + ReadMap(l, b);
    assert lhs.Keys == rhs.Keys;
    forall q | q in lhs ensures lhs[q] == rhs[q] {
    }
  }

  lemma FilesInUnion(l: Local, s: set<string>, t: set<string>)
    ensures FilesIn(l, s + t) == FilesIn(l, s) + FilesIn(l, t)
  {
  }

  /** Uploading the folders of `s` and then `folder` yields the union of the two maps. */
  lemma TargetMapAdd(l: Local, s: set<string>, folder: string)
    ensures TargetMap(l, s + {folder}) == TargetMap(l, s) + TargetMap(l, {folder})
  {
    FilesInUnion(l, s, {folder});
    var a, b := FilesIn(l, s), FilesIn(l, {folder});
    assert NormSet(a + b) == NormSet(a) + NormSet(b);
    ReadMapUnion(l, NormSet(a), NormSet(b));
  }

  /** `after` differs from `before` only by files stored from the local tree
      under paths in `allowed`: nothing is removed and nothing else is written. */
  ghost predicate StoredFrom(before: map<string, Bytes>, after: map<string, Bytes>, l: Local, allowed: set<string>)
  {
    before.Keys <= after.Keys &&
    forall q :: q in after ==>
      (q in before && after[q] == before[q]) ||
      (q in allowed && LocalExists(l, q) && after[q] == LocalRead(l, q))
  }

  /** With no path allowed, nothing can be stored. */
  lemma StoredFromNothing(before: map<string, Bytes>, after: map<string, Bytes>, l: Local)
    requires StoredFrom(before, after, l, {})
    ensures after == before
  {
    assert after.Keys == before.Keys;
  }

  /** Storing the local bytes of some of the allowed paths, except those the
      store refuses, only adds local files. */
  lemma StoredFromSent(base: map<string, Bytes>, l: Local, sent: set<string>, allowed: set<string>, refused: set<string>)
    requires sent <= allowed
    ensures StoredFrom(base, base + (ReadMap(l, sent) - refused), l, allowed)
  {
  }

  lemma StoredFromTrans(a: map<string, Bytes>, b: map<string, Bytes>, c: map<string, Bytes>,
                        l: Local, s: set<string>, t: set<string>, u: set<string>)
    requires StoredFrom(a, b, l, s) && StoredFrom(b, c, l, t) && s + t <= u
    ensures StoredFrom(a, c, l, u)
  {
  }
}

=== FILE: monitor.dfy ===
/** `FTPMonitor`: keeps a session to the remote store, polls the remote root
    for its directories, and uploads every local folder the last snapshot
    does not name. One call of `PollOnce` is one turn of the polling loop. */
module Monitor {
  import opened Paths
  import opened LocalTree
  import opened Transport

  /** What one polling pass did. An aborted pass records how many calls its
      listing made, the failing one included. */
  datatype Pass =
    | Aborted(scanned: nat)
    | Unchanged(snapshot: set<string>)
    | Changed(snapshot: set<string>, planned: set<string>, failed: set<string>, uploads: nat)

  /** The folders of `planned` whose remote form the store did not hold
      before the uploads, as a directory or as a file: those whose `mkd`
      succeeds in a run without failures. */
  function Fresh(planned: set<string>, taken: set<string>): (r: set<string>)
    ensures r <= planned
  {
    set d | d in planned && Normalise(d) !in taken
  }

  /** The script the `nlst` call of a pass meets: after the connection
      attempts when the pass starts without a session. */
  function ListingScript(connected: bool, faults: seq<bool>): seq<bool>
  {
    if connected then faults else Drop(faults, LeadingFaults(faults) + 1)
  }

  /** The calls a complete listing of the root makes: `nlst`, one `cwd` per
      name, and one `cwd('..')` per directory among them. */
  function ScanCalls(s: Server): nat
  {
    1 + |RootNames(s.dirs, s.files)| + |TopDirs(s.dirs)|
  }

  /** The transport calls `upload_folder` makes: one `mkd` and, when that
      succeeds, one store per file below the folder. */
  function FolderCalls(l: Local, folder: string, created: bool): nat
  {
    if created then 1 + |FilesIn(l, {folder})| else 1
  }

  /** The calls probing `names` makes when none fails: one `cwd` per name
      and one `cwd('..')` per directory among them. */
  ghost function ProbeCost(names: set<string>, dirs: set<string>): nat
    decreases names
  {
    if names == {} then 0
    else
      var n :| n in names;
      (if n in dirs then 2 else 1) + ProbeCost(names - {n}, dirs)
  }

  class FtpMonitor {
    var running: bool
    /** `self.ftp is not None`. */
    var connected: bool
    var prevItems: set<string>
    /** The remote store, as seen through the session. */
    var server: Server
    /** The tree below `local_path`. */
    const local: Local

    ghost predicate Valid()
      reads this
    {
      WellFormed(local) && (connected ==> server.here == "")
    }

    constructor (remote: Server, tree: Local)
      requires WellFormed(tree)
      ensures Valid()
      ensures running && !connected && prevItems == {} && server == remote && local == tree
    {
      running := true;
      connected := false;
      prevItems := {};
      server := remote;
      local := tree;
    }

    /** Opens and logs into a new session, retrying until an attempt
        succeeds, while `running` holds. */
    method Connect() returns (ghost attempts: nat)
      requires Valid()
      modifies this
      ensures Valid()
      ensures running == old(running) && prevItems == old(prevItems)
      ensures !old(running) ==> attempts == 0 && connected == old(connected) && server == old(server)
      ensures old(running) ==> connected && attempts == LeadingFaults(old(server.faults)) + 1
      ensures old(running) ==> server == old(server).(here := "", faults := Drop(old(server.faults), attempts))
    {
      attempts := 0;
      while running
        invariant Valid()
        invariant running == old(running) && prevItems == old(prevItems) && connected == old(connected)
        invariant attempts <= LeadingFaults(old(server.faults))
        invariant !old(running) ==> attempts == 0
        invariant server == old(server).(faults := Drop(old(server.faults), attempts))
        decreases |server.faults|
      {
        LeadingFaultsAt(old(server.faults), attempts);
        var step := Login(server);
        server := step.0;
        attempts := attempts + 1;
        if step.1 == Ok {
          connected := true;
          break;
        }
      }
    }

    /** Lists the remote root and keeps the entries `cwd` can enter. `ok` is
        false when a transport error cut the listing short; `calls` counts
        the calls made, the failing one included. */
    method ScanRoot() returns (found: set<string>, ok: bool, ghost calls: nat)
      requires Valid() && connected
      modifies this
      ensures running == old(running) && prevItems == old(prevItems) && connected == old(connected)
      ensures server.dirs == old(server.dirs) && server.files == old(server.files)
      ensures server.faults == Drop(old(server.faults), calls) && 0 < calls <= ScanCalls(old(server))
      ensures ok <==> CleanPrefix(old(server.faults), ScanCalls(old(server)))
      ensures ok ==> Valid() && calls == ScanCalls(old(server)) && found == TopDirs(old(server.dirs))
      ensures !ok ==> CleanPrefix(old(server.faults), calls - 1) && FaultNow(Drop(old(server.faults), calls - 1))
    {
      CleanStep(server.faults, 0);
      DropStep(server.faults, 0);
      var listing := Nlst(server);
      server := listing.0;
      if listing.1 != Ok {
        return {}, false, 1;
      }
      RootListing(old(server));
      ghost var probed;
      found, ok, probed := KeepDirectories(listing.2);
      calls := 1 + probed;
      ProbeCostCard(listing.2, old(server.dirs));
      ListingDone(old(server.faults), ProbeCost(listing.2, old(server.dirs)), probed, ok);
    }

    /** Tries `cwd` on each name of the root, stepping back out with
        `cwd('..')` after each success, and keeps the names it could enter.
        A transport error stops it with `ok` false. */
    method KeepDirectories(names: set<string>) returns (found: set<string>, ok: bool, ghost calls: nat)
      requires server.here == ""
      requires forall n :: n in names ==> '/' !in n
      modifies this
      ensures running == old(running) && prevItems == old(prevItems) && connected == old(connected)
      ensures server.dirs == old(server.dirs) && server.files == old(server.files)
      ensures server.faults == Drop(old(server.faults), calls) && calls <= ProbeCost(names, old(server.dirs))
      ensures ok <==> CleanPrefix(old(server.faults), calls)
      ensures ok ==> server.here == "" && calls == ProbeCost(names, old(server.dirs)) && found == names * old(server.dirs)
      ensures !ok ==> 0 < calls && CleanPrefix(old(server.faults), calls - 1)
    {
      ghost var dirs0, files0 := server.dirs, server.files;
      found, calls := {}, 0;
      var todo := names;
      while todo != {}
        invariant todo <= names
        invariant running == old(running) && prevItems == old(prevItems) && connected == old(connected)
        invariant server == Server(dirs0, files0, "", Drop(old(server.faults), calls))
        invariant found == (names - todo) * dirs0
        invariant calls + ProbeCost(todo, dirs0) == ProbeCost(names, dirs0)
        invariant CleanPrefix(old(server.faults), calls)
        decreases todo
      {
        var item :| item in todo;
        KeptStep(names, todo, dirs0, item);
        ProbeCostStep(todo, dirs0, item);
        var isDir, entered, steps := Probe(item);
        ProbeDone(old(server.faults), calls, steps, entered);
        if !entered {
          calls := calls + steps;
          return found, false, calls;
        }
        calls := calls + steps;
        if isDir {
          found := found + {item};
        }
        todo := todo - {item};
      }
      ok := true;
    }

    /** One name of the root listing: `cwd` into it and, when that succeeds,
        back out with `cwd('..')`. A permission error marks a name that is
        not a directory; any other error makes `ok` false. */
    method Probe(item: string) returns (isDir: bool, ok: bool, ghost steps: nat)
      requires server.here == "" && '/' !in item
      modifies this
      ensures running == old(running) && prevItems == old(prevItems) && connected == old(connected)
      ensures server.dirs == old(server.dirs) && server.files == old(server.files)
      ensures server.faults == Drop(old(server.faults), steps)
      ensures 0 < steps <= 1 + (if item in old(server.dirs) then 1 else 0)
      ensures ok <==> CleanPrefix(old(server.faults), steps)
      ensures ok ==> server.here == "" && steps == 1 + (if item in old(server.dirs) then 1 else 0) &&
                     (isDir <==> item in old(server.dirs))
      ensures !ok ==> CleanPrefix(old(server.faults), steps - 1)
    {
      DropStep(server.faults, 0);
      CleanStep(server.faults, 0);
      var entered := Cwd(server, item);
      server := entered.0;
      if entered.1 == TempError {
        return false, false, 1;
      }
      if entered.1 == PermError {
        return false, true, 1;
      }
      ParentOfTopName(item);
      DropStep(old(server.faults), 1);
      CleanStep(old(server.faults), 1);
      var back := CwdUp(server);
      server := back.0;
      return true, back.1 == Ok, 2;
    }

    /** Every local directory, at any depth, as a relative path in the host's form. */
    method GetLocalDirectories() returns (dirs: set<string>)
      ensures dirs == local.dirs
    {
      dirs := {};
      var todo := local.dirs;
      while todo != {}
        invariant todo <= local.dirs
        invariant dirs == local.dirs - todo
        decreases todo
      {
        var d :| d in todo;
        dirs := dirs + {d};
        todo := todo - {d};
      }
    }

    /** A copy of the set of names it is given. */
    method GetServerDirectories(items: set<string>) returns (copy: set<string>)
      ensures copy == items
    {
      copy := {};
      var todo := items;
      while todo != {}
        invariant todo <= items
        invariant copy == items - todo
        decreases todo
      {
        var item :| item in todo;
        copy := copy + {item};
        todo := todo - {item};
      }
    }

    /** Stores one local file under its normalised path; a missing local file
        is skipped, and a store that fails or is refused is swallowed. */
    method UploadFile(path: string) returns (ghost stored: bool)
      requires Valid() && connected
      modifies this
      ensures Valid() && connected && running == old(running) && prevItems == old(prevItems)
      ensures server.dirs == old(server.dirs) && server.here == old(server.here)
      ensures stored <==> LocalExists(local, path) && !FaultNow(old(server.faults)) && Normalise(path) !in old(server.dirs)
      ensures server.faults == if LocalExists(local, path) then Rest(old(server.faults)) else old(server.faults)
      ensures server.files == if stored then old(server.files)[Normalise(path) := LocalRead(local, path)]
                              else old(server.files)
    {
      var remotePath := Normalise(path);
      if !LocalExists(local, path) {
        stored := false;
        return;
      }
      var step := Stor(server, remotePath, LocalRead(local, path));
      server := step.0;
      stored := step.1 == Ok;
    }

    /** Creates the remote folder, then stores every local file below it; a
        failed or refused `mkd` skips all of the folder's files. `unsent`
        holds the files whose store call failed. */
    method UploadFolder(folder: string) returns (ghost created: bool, ghost unsent: set<string>)
      requires Valid() && connected
      modifies this
      ensures Valid() && connected && running == old(running) && prevItems == old(prevItems)
      ensures server.here == old(server.here)
      ensures created <==> !FaultNow(old(server.faults)) && Normalise(folder) !in Taken(old(server))
      ensures server.dirs == if created then old(server.dirs) + {Normalise(folder)} else old(server.dirs)
      ensures !created ==> server.files == old(server.files) && server.faults == Rest(old(server.faults)) && unsent == {}
      ensures unsent <= FilesIn(local, {folder})
      ensures created ==>
        server.files == old(server.files) + (ReadMap(local, NormSet(FilesIn(local, {folder}) - unsent)) - server.dirs)
      ensures |unsent| + CountFaults(server.faults) <= CountFaults(old(server.faults))
      ensures StoredFrom(old(server.files), server.files, local, NormSet(FilesIn(local, {folder})))
      ensures server.faults == Drop(old(server.faults), FolderCalls(local, folder, created))
      ensures CleanPrefix(old(server.faults), FolderCalls(local, folder, created)) ==>
        unsent == {} &&
        server.files == old(server.files) + (if created then TargetMap(local, {folder}) - server.dirs else map[])
    {
      var remotePath := Normalise(folder);
      CountFaultsRest(server.faults);
      RestDrop(server.faults);
      var step := Mkd(server, remotePath);
      server := step.0;
      var made := step.1 == Ok;
      created := made;
      if !made {
        unsent := {};
        return;
      }
      unsent := UploadFiles(folder);
      ghost var walked := |FilesIn(local, {folder})|;
      DropDrop(old(server.faults), 1, walked);
      assert FolderCalls(local, folder, created) == 1 + walked;
      assert server.faults == Drop(old(server.faults), 1 + walked);
      NormSetMono(FilesIn(local, {folder}) - unsent, FilesIn(local, {folder}));
      StoredFromSent(old(server.files), local, NormSet(FilesIn(local, {folder}) - unsent),
                     NormSet(FilesIn(local, {folder})), server.dirs);
      if CleanPrefix(old(server.faults), 1 + walked) {
        CleanMono(old(server.faults), 1, 1 + walked);
        CleanDrop(old(server.faults), 1, walked);
        assert FilesIn(local, {folder}) - unsent == FilesIn(local, {folder});
      }
    }

    /** The walk of `upload_folder`: one `upload_file` call per file below the
        folder, each going on after a failure of the one before. `unsent`
        holds the files whose store call failed; each used up a failure of
        the script. */
    method UploadFiles(folder: string) returns (ghost unsent: set<string>)
      requires Valid() && connected
      modifies this
      ensures Valid() && connected && running == old(running) && prevItems == old(prevItems)
      ensures server.here == old(server.here) && server.dirs == old(server.dirs)
      ensures unsent <= FilesIn(local, {folder})
      ensures server.files == old(server.files) + (ReadMap(local, NormSet(FilesIn(local, {folder}) - unsent)) - server.dirs)
      ensures server.faults == Drop(old(server.faults), |FilesIn(local, {folder})|)
      ensures |unsent| <= FaultsIn(old(server.faults), |FilesIn(local, {folder})|)
      ensures |unsent| + CountFaults(server.faults) <= CountFaults(old(server.faults))
      ensures CleanPrefix(old(server.faults), |FilesIn(local, {folder})|) ==> unsent == {}
    {
      ghost var base, dirs0 := server.files, server.dirs;
      ghost var done: set<string> := {};
      ghost var calls := 0;
      unsent := {};
      assert ReadMap(local, NormSet(done - unsent)) == map[];
      var todo := FilesIn(local, {folder});
      while todo != {}
        invariant todo <= FilesIn(local, {folder})
        invariant done == FilesIn(local, {folder}) - todo && unsent <= done
        invariant Valid() && connected && running == old(running) && prevItems == old(prevItems)
        invariant server.here == old(server.here) && server.dirs == dirs0
        invariant server.files == base + (ReadMap(local, NormSet(done - unsent)) - dirs0)
        invariant server.faults == Drop(old(server.faults), calls)
        invariant calls == |done|
        invariant |unsent| <= FaultsIn(old(server.faults), calls)
        decreases todo
      {
        var f :| f in todo;
        DoneStep(FilesIn(local, {folder}), todo, f);
        unsent := WalkFile(f, old(server.faults), base, done, unsent, calls);
        done := done + {f};
        calls := calls + 1;
        todo := todo - {f};
      }
      assert done == FilesIn(local, {folder});
      assert calls == |FilesIn(local, {folder})|;
      FaultsInSplit(old(server.faults), calls);
      FaultsInClean(old(server.faults), calls);
    }

    /** One file of the walk: `upload_file` on its remote form. A failed
        store adds the file to `unsent` and uses up a failure of the script. */
    method WalkFile(f: string, ghost script: seq<bool>, ghost base: map<string, Bytes>,
                    ghost done: set<string>, ghost unsent: set<string>, ghost calls: nat)
      returns (ghost unsent': set<string>)
      requires Valid() && connected && f in local.files && f !in done && unsent <= done && |done| == calls
      requires server.files == base + (ReadMap(local, NormSet(done - unsent)) - server.dirs)
      requires server.faults == Drop(script, calls) && |unsent| <= FaultsIn(script, calls)
      modifies this
      ensures Valid() && connected && running == old(running) && prevItems == old(prevItems)
      ensures server.here == old(server.here) && server.dirs == old(server.dirs)
      ensures unsent <= unsent' <= unsent + {f} && |done + {f}| == calls + 1
      ensures f in unsent' <==> FaultNow(old(server.faults))
      ensures server.files == base + (ReadMap(local, NormSet((done + {f}) - unsent')) - server.dirs)
      ensures server.faults == Drop(script, calls + 1) && |unsent'| <= FaultsIn(script, calls + 1)
    {
      ghost var prior := server;
      ReadLocalFile(local, f);
      var stored := UploadFile(Normalise(f));
      DropStep(script, calls);
      FaultsInStep(script, calls);
      NormaliseIdempotent(f);
      ghost var fault := FaultNow(prior.faults);
      WalkStep(local, base, prior.files, server.files, server.dirs, done, unsent, f, fault);
      unsent' := if fault then unsent + {f} else unsent;
    }

    /** Uploads every local directory that `prev_items` does not name; the
        argument is not consulted. `failed` holds the planned folders whose
        `mkd` was refused or failed: each of them that was new on the server
        used up a failure of the script of its own. `calls` counts the
        transport calls of the run: one `mkd` per planned folder and one
        `stor` per file of each folder it made. */
    method UploadDiffs(current: set<string>)
      returns (ghost planned: set<string>, ghost failed: set<string>, ghost calls: nat)
      requires Valid() && connected
      modifies this
      ensures Valid() && connected && running == old(running) && prevItems == old(prevItems)
      ensures planned == local.dirs - old(prevItems) && failed <= planned
      ensures planned - Fresh(planned, Taken(old(server))) <= failed
      ensures server.here == old(server.here)
      ensures server.dirs == old(server.dirs) + NormSet(planned - failed)
      ensures |Fresh(failed, Taken(old(server)))| + CountFaults(server.faults) <= CountFaults(old(server.faults))
      ensures StoredFrom(old(server.files), server.files, local, NormSet(FilesIn(local, planned)))
      ensures planned == {} ==> server == old(server)
      ensures server.faults == Drop(old(server.faults), calls) && calls <= Budget(|planned|, |local.files|)
      ensures CleanPrefix(old(server.faults), calls) ==>
        failed == planned - Fresh(planned, Taken(old(server))) &&
        server.files == old(server.files) + (TargetMap(local, Fresh(planned, Taken(old(server)))) - old(server.dirs))
      ensures NoFaults(old(server.faults)) ==>
        NoFaults(server.faults) && failed == planned - Fresh(planned, Taken(old(server))) &&
        server.files == old(server.files) + (TargetMap(local, Fresh(planned, Taken(old(server)))) - old(server.dirs))
    {
      var localDirectories := GetLocalDirectories();
      var serverDirectories := GetServerDirectories(prevItems);
      planned, failed, calls := {}, {}, 0;
      ghost var count := 0;
      ghost var paid: set<string> := {};
      DiffsInvStart(local, server);
      var todo := localDirectories;
      while todo != {}
        invariant todo <= localDirectories
        invariant planned == (localDirectories - todo) - serverDirectories
        invariant Valid() && connected && running == old(running) && prevItems == old(prevItems)
        invariant server.here == old(server.here)
        invariant DiffsInv(local, old(server), server, planned, failed, paid, calls)
        invariant server.faults == Drop(old(server.faults), calls)
        invariant count == |planned| && calls <= Budget(count, |local.files|)
        invariant planned == {} ==> server == old(server)
        decreases todo
      {
        var directory :| directory in todo;
        PlannedStep(localDirectories, serverDirectories, todo, directory);
        if directory !in serverDirectories {
          failed, paid, calls := VisitFolder(directory, old(server), planned, failed, paid, calls, count);
          planned, count := planned + {directory}, count + 1;
        }
        todo := todo - {directory};
      }
      DiffsDone(local, old(server), server, planned, failed, paid, calls, count);
    }

    /** One `upload_folder` call of the loop in `UploadDiffs`, from the store
        `before` the loop: it keeps the invariant of the loop, with the calls
        of the folder added to those of the run. */
    method VisitFolder(directory: string, ghost before: Server, ghost planned: set<string>,
                       ghost failed: set<string>, ghost paid: set<string>, ghost calls: nat, ghost count: nat)
      returns (ghost failed': set<string>, ghost paid': set<string>, ghost calls': nat)
      requires Valid() && connected && directory in local.dirs && planned <= local.dirs && directory !in planned
      requires DiffsInv(local, before, server, planned, failed, paid, calls)
      requires server.faults == Drop(before.faults, calls) && count == |planned| && calls <= Budget(count, |local.files|)
      modifies this
      ensures Valid() && connected && running == old(running) && prevItems == old(prevItems)
      ensures server.here == old(server.here)
      ensures DiffsInv(local, before, server, planned + {directory}, failed', paid', calls')
      ensures server.faults == Drop(before.faults, calls') && count + 1 == |planned + {directory}|
      ensures calls' <= Budget(count + 1, |local.files|)
    {
      ghost var prior := server;
      var created, unsent := UploadFolder(directory);
      ghost var used := FolderCalls(local, directory, created);
      failed', paid' := DiffsStep(local, before, prior, server, planned, failed, paid, calls, directory, created, used);
      calls' := calls + used;
      DropDrop(before.faults, calls, used);
      FolderCallsBound(local, directory, created);
      CallsBound(count, |local.files|, calls, used, calls');
    }

    /** The listing half of a turn: connect if there is no session, then
        take the snapshot of the remote root. `calls` counts the calls of the
        listing in the script it meets. */
    method ListRoot() returns (found: set<string>, ok: bool, ghost calls: nat)
      requires Valid() && running
      modifies this
      ensures running && connected && prevItems == old(prevItems)
      ensures server.dirs == old(server.dirs) && server.files == old(server.files)
      ensures server.faults == Drop(ListingScript(old(connected), old(server.faults)), calls)
      ensures 0 < calls <= ScanCalls(old(server))
      ensures CountFaults(server.faults) <= CountFaults(old(server.faults))
      ensures ok <==> CleanPrefix(ListingScript(old(connected), old(server.faults)), ScanCalls(old(server)))
      ensures ok ==> Valid() && calls == ScanCalls(old(server)) && found == TopDirs(old(server.dirs))
      ensures !ok ==>
        CleanPrefix(ListingScript(old(connected), old(server.faults)), calls - 1) &&
        FaultNow(Drop(ListingScript(old(connected), old(server.faults)), calls - 1))
      ensures NoFaults(old(server.faults)) ==> ok && NoFaults(server.faults)
    {
      if !connected {
        var attempts := Connect();
        CountFaultsDrop(old(server.faults), attempts);
        if NoFaults(old(server.faults)) {
          NoFaultsDrop(old(server.faults), LeadingFaults(old(server.faults)) + 1);
        }
      }
      ghost var listed := server.faults;
      found, ok, calls := ScanRoot();
      CountFaultsDrop(listed, calls);
      if NoFaults(listed) {
        NoFaultsDrop(listed, calls);
        NoFaultsClean(listed, ScanCalls(old(server)));
      }
    }

    /** The changed branch of a turn: record the snapshot `found` and upload
        what is missing. `before` is the store at the start of the turn and
        the listing used the first `listing` calls of `script`, all clean;
        the contract restates what `UploadDiffs` promises in those terms. */
    method UploadChanges(found: set<string>, ghost before: Server, ghost script: seq<bool>, ghost listing: nat)
      returns (ghost pass: Pass)
      requires Valid() && connected
      requires server.dirs == before.dirs && server.files == before.files
      requires server.faults == Drop(script, listing) && CleanPrefix(script, listing)
      requires CountFaults(server.faults) <= CountFaults(before.faults)
      requires NoFaults(before.faults) ==> NoFaults(server.faults)
      modifies this
      ensures Valid() && connected && running == old(running) && server.here == old(server.here)
      ensures pass.Changed? && pass.snapshot == found && prevItems == found
      ensures server.dirs >= before.dirs && server.files.Keys >= before.files.Keys
      ensures UploadedAfterListing(local, before, server, script, listing, pass)
    {
      prevItems := found;
      ghost var scanned := server;
      var planned, failed, uploads := UploadDiffs(found);
      pass := Changed(found, planned, failed, uploads);
      ChangedPass(local, before, scanned, server, script, listing, pass);
    }

    /** One turn of the polling loop: connect if there is no session, take a
        snapshot of the remote root's directories, and when it differs from
        `prev_items` record it and upload what is missing. A transport error
        in the listing abandons the turn and drops the session. */
    method PollOnce() returns (ghost pass: Pass)
      requires Valid() && running
      modifies this
      ensures Valid() && running
      ensures server.dirs >= old(server.dirs) && server.files.Keys >= old(server.files.Keys)
      ensures pass.Aborted? <==> !CleanPrefix(ListingScript(old(connected), old(server.faults)), ScanCalls(old(server)))
      ensures pass.Aborted? ==>
        !connected && prevItems == old(prevItems) &&
        server.dirs == old(server.dirs) && server.files == old(server.files) &&
        0 < pass.scanned <= ScanCalls(old(server)) &&
        CleanPrefix(ListingScript(old(connected), old(server.faults)), pass.scanned - 1) &&
        FaultNow(Drop(ListingScript(old(connected), old(server.faults)), pass.scanned - 1)) &&
        server.faults == Drop(ListingScript(old(connected), old(server.faults)), pass.scanned)
      ensures !pass.Aborted? ==>
        connected && server.here == "" &&
        pass.snapshot == TopDirs(old(server.dirs)) && prevItems == pass.snapshot
      ensures pass.Unchanged? <==> !pass.Aborted? && pass.snapshot == old(prevItems)
      ensures pass.Unchanged? ==>
        server.dirs == old(server.dirs) && server.files == old(server.files) &&
        server.faults == Drop(ListingScript(old(connected), old(server.faults)), ScanCalls(old(server)))
      ensures UploadedAfterListing(local, old(server), server, ListingScript(old(connected), old(server.faults)), ScanCalls(old(server)), pass)
      ensures NoFaults(old(server.faults)) ==> !pass.Aborted? && NoFaults(server.faults)
    {
      var found, ok, calls := ListRoot();
      if !ok {
        connected := false;
        return Aborted(calls);
      }
      if found != prevItems {
        pass := UploadChanges(found, old(server), ListingScript(old(connected), old(server.faults)), ScanCalls(old(server)));
      } else {
        pass := Unchanged(found);
      }
    }
  }

  /** A new snapshot that leaves no local folder to upload changes nothing
      on the server and consumes no script entry after the listing. */
  lemma NothingPlannedKeepsStore(l: Local, before: Server, after: Server, script: seq<bool>, listing: nat, pass: Pass)
    requires UploadedAfterListing(l, before, after, script, listing, pass)
    requires pass.Changed? && pass.planned == {}
    ensures after.dirs == before.dirs && after.files == before.files
    ensures after.faults == Drop(script, listing)
  {
    assert |pass.planned| == 0 && Budget(0, |l.files|) == 0;
    assert listing + pass.uploads == listing;
    assert pass.planned - pass.failed == {} && NormSet({}) == {};
    assert FilesIn(l, {}) == {};
    StoredFromNothing(before.files, after.files, l);
  }

  /** What a turn promises when it found a new snapshot. */
  ghost predicate UploadedAfterListing(l: Local, before: Server, after: Server, script: seq<bool>, listing: nat, pass: Pass)
  {
    pass.Changed? ==>
      pass.planned == l.dirs - pass.snapshot && pass.failed <= pass.planned &&
      pass.planned - Fresh(pass.planned, Taken(before)) <= pass.failed &&
      after.dirs == before.dirs + NormSet(pass.planned - pass.failed) &&
      |Fresh(pass.failed, Taken(before))| <= CountFaults(before.faults) &&
      StoredFrom(before.files, after.files, l, NormSet(FilesIn(l, pass.planned))) &&
      after.faults == Drop(script, listing + pass.uploads) &&
      pass.uploads <= Budget(|pass.planned|, |l.files|) &&
      (CleanPrefix(script, listing + pass.uploads) ==>
         pass.failed == pass.planned - Fresh(pass.planned, Taken(before)) &&
         after.files == before.files + (TargetMap(l, Fresh(pass.planned, Taken(before))) - before.dirs)) &&
      (NoFaults(before.faults) ==>
         NoFaults(after.faults) && pass.failed == pass.planned - Fresh(pass.planned, Taken(before)) &&
         after.files == before.files + (TargetMap(l, Fresh(pass.planned, Taken(before))) - before.dirs))
  }

  /** A pass that uploads after a clean listing: what `UploadDiffs` states of
      the store `scanned` after the listing holds of the store `before` the
      pass, since the login and the listing change neither folders nor files,
      and the calls of the upload follow those of the listing in `script`. */
  lemma ChangedPass(l: Local, before: Server, scanned: Server, after: Server, script: seq<bool>, listing: nat,
                    pass: Pass)
    requires pass.Changed? && pass.planned == l.dirs - pass.snapshot && pass.failed <= pass.planned
    requires pass.uploads <= Budget(|pass.planned|, |l.files|)
    requires scanned.dirs == before.dirs && scanned.files == before.files
    requires scanned.faults == Drop(script, listing) && CleanPrefix(script, listing)
    requires CountFaults(scanned.faults) <= CountFaults(before.faults)
    requires NoFaults(before.faults) ==> NoFaults(scanned.faults)
    requires pass.planned - Fresh(pass.planned, Taken(scanned)) <= pass.failed
    requires after.dirs == scanned.dirs + NormSet(pass.planned - pass.failed)
    requires |Fresh(pass.failed, Taken(scanned))| + CountFaults(after.faults) <= CountFaults(scanned.faults)
    requires StoredFrom(scanned.files, after.files, l, NormSet(FilesIn(l, pass.planned)))
    requires after.faults == Drop(scanned.faults, pass.uploads)
    requires CleanPrefix(scanned.faults, pass.uploads) ==>
      pass.failed == pass.planned - Fresh(pass.planned, Taken(scanned)) &&
      after.files == scanned.files + (TargetMap(l, Fresh(pass.planned, Taken(scanned))) - scanned.dirs)
    requires NoFaults(scanned.faults) ==>
      NoFaults(after.faults) && pass.failed == pass.planned - Fresh(pass.planned, Taken(scanned)) &&
      after.files == scanned.files + (TargetMap(l, Fresh(pass.planned, Taken(scanned))) - scanned.dirs)
    ensures UploadedAfterListing(l, before, after, script, listing, pass)
  {
    assert Taken(scanned) == Taken(before);
    DropDrop(script, listing, pass.uploads);
    if CleanPrefix(script, listing + pass.uploads) {
      CleanDrop(script, listing, pass.uploads);
    }
  }

  /** One probe after `calls` clean calls: the calls so far stay clean
      exactly when the probe entered its name. */
  lemma ProbeDone(faults: seq<bool>, calls: nat, steps: nat, entered: bool)
    requires CleanPrefix(faults, calls)
    requires entered <==> CleanPrefix(Drop(faults, calls), steps)
    requires !entered ==> 0 < steps && CleanPrefix(Drop(faults, calls), steps - 1)
    ensures Drop(Drop(faults, calls), steps) == Drop(faults, calls + steps)
    ensures entered <==> CleanPrefix(faults, calls + steps)
    ensures !entered ==> CleanPrefix(faults, calls + steps - 1)
  {
    DropDrop(faults, calls, steps);
    CleanDrop(faults, calls, steps);
    if !entered {
      CleanDrop(faults, calls, steps - 1);
    }
  }

  /** After a clean `nlst`, the probes of its names decide the listing: it
      completes exactly when the calls of a complete listing are all clean. */
  lemma ListingDone(faults: seq<bool>, cost: nat, probed: nat, ok: bool)
    requires !FaultNow(faults)
    requires probed <= cost
    requires ok <==> CleanPrefix(Drop(faults, 1), probed)
    requires ok ==> probed == cost
    requires !ok ==> 0 < probed && CleanPrefix(Drop(faults, 1), probed - 1)
    ensures Drop(Drop(faults, 1), probed) == Drop(faults, 1 + probed)
    ensures ok <==> CleanPrefix(faults, 1 + cost)
    ensures !ok ==> CleanPrefix(faults, probed) && FaultNow(Drop(faults, probed))
  {
    CleanStep(faults, 0);
    DropDrop(faults, 1, probed);
    CleanDrop(faults, 1, probed);
    if !ok {
      CleanDrop(faults, 1, probed - 1);
      DropDrop(faults, 1, probed - 1);
      CleanStep(faults, probed);
    }
  }

  /** Taking `item` off the names still to visit keeps it exactly when it is a directory. */
  lemma KeptStep(names: set<string>, todo: set<string>, dirs: set<string>, item: string)
    requires item in todo
    ensures (names - (todo - {item})) * dirs == ((names - todo) * dirs) + (if item in dirs && item in names then {item} else {})
  {
  }

  /** Probing costs one call per name and one more per directory. */
  lemma {:induction false} ProbeCostCard(names: set<string>, dirs: set<string>)
    ensures ProbeCost(names, dirs) == |names| + |names * dirs|
    decreases names
  {
    if names != {} {
      var n :| n in names && ProbeCost(names, dirs) == (if n in dirs then 2 else 1) + ProbeCost(names - {n}, dirs);
      ProbeCostCard(names - {n}, dirs);
      VisitCount(names, dirs, n);
    }
  }

  /** Probing `item` first and then the rest costs what probing all of them does. */
  lemma ProbeCostStep(todo: set<string>, dirs: set<string>, item: string)
    requires item in todo
    ensures ProbeCost(todo, dirs) == (if item in dirs then 2 else 1) + ProbeCost(todo - {item}, dirs)
  {
    ProbeCostCard(todo, dirs);
    ProbeCostCard(todo - {item}, dirs);
    VisitCount(todo, dirs, item);
  }

  /** Taking `item` off the names still to visit leaves one name fewer, and
      one directory fewer when it is a directory. */
  lemma VisitCount(todo: set<string>, dirs: set<string>, item: string)
    requires item in todo
    ensures |todo - {item}| + 1 == |todo|
    ensures |(todo - {item}) * dirs| + (if item in dirs then 1 else 0) == |todo * dirs|
  {
    if item in dirs {
      assert (todo - {item}) * dirs == todo * dirs - {item};
    } else {
      assert (todo - {item}) * dirs == todo * dirs;
    }
  }

  /** At the root, the listing is the root's names, and those that are
      directories are the top-level directories. */
  lemma RootListing(s: Server)
    requires s.here == ""
    ensures Children(s) == RootNames(s.dirs, s.files)
    ensures RootNames(s.dirs, s.files) * s.dirs == TopDirs(s.dirs)
    ensures forall n :: n in Children(s) ==> '/' !in n
  {
  }

  /** Within a run without failures, the `mkd` of a folder not yet planned
      succeeds exactly when its remote form was not held before the run:
      distinct local folders never share a remote form. */
  lemma FreshStep(l: Local, planned: set<string>, directory: string, before: set<string>)
    requires WellFormed(l) && directory in l.dirs && planned <= l.dirs && directory !in planned
    ensures Normalise(directory) !in before + NormSet(planned) <==> Normalise(directory) !in before
    ensures Fresh(planned + {directory}, before) ==
      if Normalise(directory) !in before then Fresh(planned, before) + {directory} else Fresh(planned, before)
  {
    if Normalise(directory) in NormSet(planned) {
      var other :| other in planned && Normalise(other) == Normalise(directory);
      NormaliseInjective(other, directory, l.sep);
      assert false;
    }
  }

  /** Before a folder's `mkd`, the store holds its remote form exactly when
      it did before the uploads began: no other local folder and no local
      file shares that form. */
  lemma TakenStep(l: Local, before: Server, prior: Server, planned: set<string>, failed: set<string>, directory: string)
    requires WellFormed(l) && directory in l.dirs && planned <= l.dirs && directory !in planned && failed <= planned
    requires prior.dirs == before.dirs + NormSet(planned - failed)
    requires StoredFrom(before.files, prior.files, l, NormSet(FilesIn(l, planned)))
    ensures Normalise(directory) in Taken(prior) <==> Normalise(directory) in Taken(before)
  {
    var q := Normalise(directory);
    NormSetMono(planned - failed, planned);
    FreshStep(l, planned, directory, before.dirs);
    if q in prior.files && q !in before.files {
      var f :| f in FilesIn(l, planned) && q == Normalise(f);
      FolderNotFile(l, directory, f);
    }
  }

  /** Taking `f` off the files still to upload adds it to those done. */
  lemma DoneStep(all: set<string>, todo: set<string>, f: string)
    requires f in todo && todo <= all
    ensures f !in all - todo
    ensures all - (todo - {f}) == (all - todo) + {f}
  {
  }

  /** Taking `d` off the folders still to visit plans it unless `prev_items` names it. */
  lemma PlannedStep(dirs: set<string>, prev: set<string>, todo: set<string>, d: string)
    requires d in todo && todo <= dirs
    ensures d !in (dirs - todo) - prev
    ensures d !in prev ==> (dirs - (todo - {d})) - prev == ((dirs - todo) - prev) + {d}
    ensures d in prev ==> (dirs - (todo - {d})) - prev == (dirs - todo) - prev
  {
  }

  /** The invariant of the loop in `UploadDiffs`, from the store `before` the
      loop to the store `now`, once the folders of `planned` are uploaded and
      those of `failed` had their `mkd` refused or failed; `paid` holds the
      failed folders that were new on the server, each of which used up a
      failure of the script. */
  ghost predicate DiffsInv(l: Local, before: Server, now: Server, planned: set<string>, failed: set<string>, paid: set<string>,
                           calls: nat)
  {
    planned - Fresh(planned, Taken(before)) <= failed <= planned &&
    Fresh(failed, Taken(before)) <= paid <= failed && |paid| + CountFaults(now.faults) <= CountFaults(before.faults) &&
    now.dirs == before.dirs + NormSet(planned - failed) &&
    StoredFrom(before.files, now.files, l, NormSet(FilesIn(l, planned))) &&
    (CleanPrefix(before.faults, calls) ==>
       failed == planned - Fresh(planned, Taken(before)) &&
       now.files == before.files + (TargetMap(l, Fresh(planned, Taken(before))) - before.dirs))
  }

  /** Before the first folder, `DiffsInv` holds of the unchanged store. */
  lemma DiffsInvStart(l: Local, s: Server)
    ensures DiffsInv(l, s, s, {}, {}, {}, 0)
  {
    assert NormSet({}) == {} && Fresh({}, Taken(s)) == {} && FilesIn(l, {}) == {};
    assert TargetMap(l, {}) == map[];
    assert s.files + (map[] - s.dirs) == s.files;
  }

  /** Once every folder is visited, `DiffsInv` gives what `upload_diffs`
      promises about the run. */
  lemma DiffsDone(l: Local, before: Server, after: Server, planned: set<string>, failed: set<string>,
                  paid: set<string>, calls: nat, count: nat)
    requires DiffsInv(l, before, after, planned, failed, paid, calls)
    requires after.faults == Drop(before.faults, calls) && count == |planned| && calls <= Budget(count, |l.files|)
    ensures failed <= planned && planned - Fresh(planned, Taken(before)) <= failed
    ensures after.dirs == before.dirs + NormSet(planned - failed)
    ensures |Fresh(failed, Taken(before))| + CountFaults(after.faults) <= CountFaults(before.faults)
    ensures StoredFrom(before.files, after.files, l, NormSet(FilesIn(l, planned)))
    ensures calls <= Budget(|planned|, |l.files|)
    ensures CleanPrefix(before.faults, calls) ==>
      failed == planned - Fresh(planned, Taken(before)) &&
      after.files == before.files + (TargetMap(l, Fresh(planned, Taken(before))) - before.dirs)
    ensures NoFaults(before.faults) ==>
      NoFaults(after.faults) && failed == planned - Fresh(planned, Taken(before)) &&
      after.files == before.files + (TargetMap(l, Fresh(planned, Taken(before))) - before.dirs)
  {
    SubsetCard(Fresh(failed, Taken(before)), paid);
    if NoFaults(before.faults) {
      NoFaultsDrop(before.faults, calls);
      NoFaultsClean(before.faults, calls);
    }
  }

  /** One folder upload keeps `DiffsInv`: `prior` is the store before the
      folder, `after` the store after it. */
  lemma DiffsStep(l: Local, before: Server, prior: Server, after: Server,
                  planned: set<string>, failed: set<string>, paid: set<string>, calls: nat,
                  directory: string, created: bool, used: nat)
    returns (failed': set<string>, paid': set<string>)
    requires WellFormed(l) && directory in l.dirs && planned <= l.dirs && directory !in planned
    requires DiffsInv(l, before, prior, planned, failed, paid, calls) && prior.faults == Drop(before.faults, calls)
    requires created <==> !FaultNow(prior.faults) && Normalise(directory) !in Taken(prior)
    requires after.dirs == if created then prior.dirs + {Normalise(directory)} else prior.dirs
    requires !created ==> after.faults == Rest(prior.faults)
    requires CountFaults(after.faults) <= CountFaults(prior.faults)
    requires StoredFrom(prior.files, after.files, l, NormSet(FilesIn(l, {directory})))
    requires used == FolderCalls(l, directory, created) && after.faults == Drop(prior.faults, used)
    requires CleanPrefix(prior.faults, used) ==>
      after.files == prior.files + (if created then TargetMap(l, {directory}) - after.dirs else map[])
    ensures DiffsInv(l, before, after, planned + {directory}, failed', paid', calls + used)
  {
    failed' := if created then failed else failed + {directory};
    paid' := if !created && Normalise(directory) !in Taken(before) then paid + {directory} else paid;
    TakenStep(l, before, prior, planned, failed, directory);
    FreshStep(l, planned, directory, Taken(before));
    ghost var clean := CleanPrefix(before.faults, calls + used);
    if clean {
      CleanMono(before.faults, calls, calls + used);
      CleanDrop(before.faults, calls, used);
      CleanFirst(prior.faults, used);
    }
    UploadStep(l, before, prior, after, planned, failed, directory, created, clean);
    DirsStep(before, prior, after, planned, failed, failed', directory, created);
    PaidStep(before, prior, after, failed, failed', paid, paid', directory, created);
    if clean {
      FailedStep(l, planned, failed, failed', directory, Taken(before), created);
    }
  }

  /** A folder upload makes at most one call more than there are local files. */
  lemma FolderCallsBound(l: Local, folder: string, created: bool)
    ensures FolderCalls(l, folder, created) <= 1 + |l.files|
  {
    SubsetCard(FilesIn(l, {folder}), l.files.Keys);
  }

  /** Adding a folder whose upload stays within one folder's budget keeps the
      calls of the run within the budget of the folders planned. */
  lemma CallsBound(count: nat, files: nat, calls: nat, used: nat, total: nat)
    requires calls <= Budget(count, files) && used <= 1 + files && total == calls + used
    ensures total <= Budget(count + 1, files)
  {
  }

  /** The most calls an upload of `folders` folders can make when the local
      tree holds `files` files: a `mkd` and a `stor` per file for each. */
  function Budget(folders: nat, files: nat): nat
  {
    if folders == 0 then 0 else 1 + files + Budget(folders - 1, files)
  }

  /** `Budget` in closed form. */
  lemma {:induction false} BudgetProduct(folders: nat, files: nat)
    ensures Budget(folders, files) == folders * (1 + files)
  {
    if folders > 0 {
      BudgetProduct(folders - 1, files);
    }
  }

  /** One folder upload keeps the file part of the invariant of the loop in
      `UploadDiffs`: `prior` is the store before the folder, `after` the
      store after it. */
  lemma UploadStep(l: Local, before: Server, prior: Server, after: Server,
                   planned: set<string>, failed: set<string>, directory: string, created: bool, clean: bool)
    requires WellFormed(l) && directory in l.dirs && planned <= l.dirs && directory !in planned && failed <= planned
    requires prior.dirs == before.dirs + NormSet(planned - failed)
    requires StoredFrom(before.files, prior.files, l, NormSet(FilesIn(l, planned)))
    requires clean ==>
      failed == planned - Fresh(planned, Taken(before)) &&
      prior.files == before.files + (TargetMap(l, Fresh(planned, Taken(before))) - before.dirs)
    requires Normalise(directory) in Taken(prior) <==> Normalise(directory) in Taken(before)
    requires created <==> !FaultNow(prior.faults) && Normalise(directory) !in Taken(prior)
    requires after.dirs == if created then prior.dirs + {Normalise(directory)} else prior.dirs
    requires StoredFrom(prior.files, after.files, l, NormSet(FilesIn(l, {directory})))
    requires clean ==>
      !FaultNow(prior.faults) &&
      after.files == prior.files + (if created then TargetMap(l, {directory}) - after.dirs else map[])
    ensures StoredFrom(before.files, after.files, l, NormSet(FilesIn(l, planned + {directory})))
    ensures clean ==>
      after.files == before.files + (TargetMap(l, Fresh(planned + {directory}, Taken(before))) - before.dirs)
  {
    FilesInUnion(l, planned, {directory});
    assert NormSet(FilesIn(l, planned + {directory})) ==
           NormSet(FilesIn(l, planned)) + NormSet(FilesIn(l, {directory}));
    StoredFromTrans(before.files, prior.files, after.files, l,
                    NormSet(FilesIn(l, planned)), NormSet(FilesIn(l, {directory})),
                    NormSet(FilesIn(l, planned + {directory})));
    if clean {
      FreshStep(l, planned, directory, Taken(before));
      NormSetAdd(planned - failed, directory);
      if created {
        assert after.dirs == before.dirs + NormSet((planned - failed) + {directory});
      }
      FilesStep(l, before.files, prior.files, after.files, before.dirs, (planned - failed) + {directory},
                Fresh(planned, Taken(before)), directory, created);
    }
  }

  /** One folder upload keeps the directory invariant of the loop in
      `UploadDiffs`: a refused or failed `mkd` joins `failed`, and the
      store gains the folder's remote form otherwise. */
  lemma DirsStep(before: Server, prior: Server, after: Server,
                 planned: set<string>, failed: set<string>, failed': set<string>, directory: string, created: bool)
    requires directory !in planned && failed <= planned
    requires prior.dirs == before.dirs + NormSet(planned - failed)
    requires after.dirs == if created then prior.dirs + {Normalise(directory)} else prior.dirs
    requires failed' == if created then failed else failed + {directory}
    ensures after.dirs == before.dirs + NormSet((planned + {directory}) - failed')
  {
    if created {
      assert (planned + {directory}) - failed == (planned - failed) + {directory};
      NormSetAdd(planned - failed, directory);
    } else {
      assert (planned + {directory}) - (failed + {directory}) == planned - failed;
    }
  }

  /** A refused or failed `mkd` of a folder whose remote form the store did
      not hold before the uploads used up a failure of the script. */
  lemma PaidStep(before: Server, prior: Server, after: Server,
                 failed: set<string>, failed': set<string>, paid: set<string>, paid': set<string>,
                 directory: string, created: bool)
    requires directory !in failed
    requires Normalise(directory) in Taken(prior) <==> Normalise(directory) in Taken(before)
    requires Fresh(failed, Taken(before)) <= paid <= failed && |paid| + CountFaults(prior.faults) <= CountFaults(before.faults)
    requires created <==> !FaultNow(prior.faults) && Normalise(directory) !in Taken(prior)
    requires !created ==> after.faults == Rest(prior.faults)
    requires CountFaults(after.faults) <= CountFaults(prior.faults)
    requires failed' == if created then failed else failed + {directory}
    requires paid' == if !created && Normalise(directory) !in Taken(before) then paid + {directory} else paid
    ensures Fresh(failed', Taken(before)) <= paid' <= failed' && |paid'| + CountFaults(after.faults) <= CountFaults(before.faults)
  {
    if !created {
      if Normalise(directory) !in Taken(before) {
        CountFaultsRest(prior.faults);
        assert Fresh(failed + {directory}, Taken(before)) <= Fresh(failed, Taken(before)) + {directory};
      } else {
        assert Fresh(failed + {directory}, Taken(before)) == Fresh(failed, Taken(before));
      }
    }
  }

  /** In a run without failures, exactly the folders whose remote form the
      store already held are refused. */
  lemma FailedStep(l: Local, planned: set<string>, failed: set<string>, failed': set<string>,
                   directory: string, taken: set<string>, created: bool)
    requires WellFormed(l) && directory in l.dirs && planned <= l.dirs && directory !in planned
    requires failed == planned - Fresh(planned, taken)
    requires created <==> Normalise(directory) !in taken
    requires failed' == if created then failed else failed + {directory}
    ensures failed' == (planned + {directory}) - Fresh(planned + {directory}, taken)
  {
    FreshStep(l, planned, directory, taken);
  }

  lemma {:induction false} SubsetCard(a: set<string>, b: set<string>)
    requires a <= b
    ensures |a| <= |b|
    decreases b
  {
    if a != {} {
      var x :| x in a;
      SubsetCard(a - {x}, b - {x});
    }
  }

  lemma NormSetAdd(s: set<string>, p: string)
    ensures NormSet(s + {p}) == NormSet(s) + {Normalise(p)}
  {
  }

  lemma NormSetMono(s: set<string>, t: set<string>)
    requires s <= t
    ensures NormSet(s) <= NormSet(t)
  {
  }

  /** Removing the remote forms of local folders takes no key from a map of
      local files: a folder and a file never share a remote form. */
  lemma ReadMapMinusFolders(l: Local, files: set<string>, dirs: set<string>, folders: set<string>)
    requires WellFormed(l) && files <= l.files.Keys && folders <= l.dirs
    ensures ReadMap(l, NormSet(files)) - (dirs + NormSet(folders)) == ReadMap(l, NormSet(files)) - dirs
  {
    var m := ReadMap(l, NormSet(files));
    forall q | q in m ensures q !in NormSet(folders) {
      var f :| f in files && q == Normalise(f);
      if q in NormSet(folders) {
        var d :| d in folders && q == Normalise(d);
        FolderNotFile(l, d, f);
      }
    }
    assert (m - (dirs + NormSet(folders))).Keys == (m - dirs).Keys;
  }

  lemma MapMinusUnion(base: map<string, Bytes>, a: map<string, Bytes>, b: map<string, Bytes>, dirs: set<string>)
    ensures (base + (a - dirs)) + (b - dirs) == base + ((a + b) - dirs)
  {
    var lhs, rhs := (base + (a - dirs)) + (b - dirs), base + ((a + b) - dirs);
    assert lhs.Keys == rhs.Keys;
    forall k | k in lhs ensures lhs[k] == rhs[k] {
    }
  }

  lemma MapMinusAdd(base: map<string, Bytes>, r: map<string, Bytes>, q: string, v: Bytes, dirs: set<string>)
    ensures base + ((r + map[q := v]) - dirs) ==
      if q in dirs then base + (r - dirs) else (base + (r - dirs))[q := v]
  {
    var lhs := base + ((r + map[q := v]) - dirs);
    var rhs := if q in dirs then base + (r - dirs) else (base + (r - dirs))[q := v];
    assert lhs.Keys == rhs.Keys;
    forall k | k in lhs ensures lhs[k] == rhs[k] {
    }
  }

  /** One folder of a run without failures keeps the file part of the
      invariant of the loop in `UploadDiffs`: the folder's files are stored,
      except those whose remote form was a directory before the uploads. */
  lemma FilesStep(l: Local, base: map<string, Bytes>, prior: map<string, Bytes>, after: map<string, Bytes>,
                  dirs: set<string>, made: set<string>, done: set<string>, directory: string, created: bool)
    requires WellFormed(l) && directory in l.dirs && made <= l.dirs
    requires prior == base + (TargetMap(l, done) - dirs)
    requires after == prior + if created then TargetMap(l, {directory}) - (dirs + NormSet(made)) else map[]
    ensures after == base + (TargetMap(l, if created then done + {directory} else done) - dirs)
  {
    if created {
      ReadMapMinusFolders(l, FilesIn(l, {directory}), dirs, made);
      TargetMapAdd(l, done, directory);
      MapMinusUnion(base, TargetMap(l, done), TargetMap(l, {directory}), dirs);
    } else {
      assert after == prior;
    }
  }

  /** One file of the walk keeps the invariant of the loop in `UploadFiles`:
      a failed store joins `unsent`, a refused one changes nothing, and
      otherwise the file's bytes land under its remote form. */
  lemma WalkStep(l: Local, base: map<string, Bytes>, prior: map<string, Bytes>, after: map<string, Bytes>,
                 dirs: set<string>, done: set<string>, unsent: set<string>, f: string, fault: bool)
    requires WellFormed(l) && f in l.files && f !in done && unsent <= done
    requires prior == base + (ReadMap(l, NormSet(done - unsent)) - dirs)
    requires after == if !fault && Normalise(f) !in dirs then prior[Normalise(f) := l.files[f]] else prior
    ensures after == base + (ReadMap(l, NormSet((done + {f}) - (if fault then unsent + {f} else unsent))) - dirs)
  {
    if fault {
      assert (done + {f}) - (unsent + {f}) == done - unsent;
    } else {
      var q := Normalise(f);
      ReadLocalFile(l, f);
      assert (done + {f}) - unsent == (done - unsent) + {f};
      NormSetAdd(done - unsent, f);
      ReadMapUnion(l, NormSet(done - unsent), {q});
      ReadMapSingle(l, q);
      MapMinusAdd(base, ReadMap(l, NormSet(done - unsent)), q, l.files[f], dirs);
    }
  }

  lemma ReadMapSingle(l: Local, q: string)
    ensures ReadMap(l, {q}) == if LocalExists(l, q) then map[q := LocalRead(l, q)] else map[]
  {
    if LocalExists(l, q) {
      assert ReadMap(l, {q}).Keys == {q};
    } else {
      assert ReadMap(l, {q}).Keys == {};
    }
  }

  /** A nested local folder is never named by a snapshot of a remote root
      whose names hold no backslash: every polling pass that uploads plans it
      again, and its `mkd` then meets the existing directory. */
  lemma NestedFolderAlwaysPlanned(l: Local, folder: string, remote: set<string>)
    requires WellFormed(l) && folder in l.dirs && l.sep in folder
    requires forall r :: r in remote ==> '\\' !in r
    ensures folder in l.dirs - TopDirs(remote)
  {
  }

  /** The directories the uploads create hold no backslash, so a remote root
      without backslashes keeps none. */
  lemma UploadedDirsHaveNoBackslash(before: set<string>, planned: set<string>, after: set<string>)
    requires forall r :: r in before ==> '\\' !in r
    requires after <= before + NormSet(planned)
    ensures forall r :: r in after ==> '\\' !in r
  {
    forall r | r in after ensures '\\' !in r {
      if r !in before {
        var d :| d in planned && r == Normalise(d);
        NormaliseNoBackslash(d);
      }
    }
  }
}

=== FILE: paths.dfy ===
/** Path strings: the backslash-to-slash normalisation applied before every
    remote call, and its inverse toward the host's own separator. */
module Paths {

  /** Every occurrence of the character `from` in `s` replaced by `to`
      (Python's `str.replace` for one character). */
  function Replace(s: string, from: char, to: char): (r: string)
    ensures |r| == |s|
  {
    if s == [] then [] else [if s[0] == from then to else s[0]] + Replace(s[1..], from, to)
  }

  /** The remote form of a relative path: `path.replace('\\', '/')`. */
  function Normalise(p: string): (r: string)
    ensures |r| == |p|
  {
    Replace(p, '\\', '/')
  }

  /** The string the host's file system sees for a slash path: on a host whose
      separator is a backslash, a slash is read as a separator too. */
  function ToNative(p: string, sep: char): (r: string)
    ensures |r| == |p|
  {
    Replace(p, '/', sep)
  }

  /** A relative path written with the host separator `sep` only: on a
      backslash host no slash appears, on a slash host no backslash does. */
  predicate HostClean(p: string, sep: char)
  {
    (sep == '\\' && '/' !in p) || (sep == '/' && '\\' !in p)
  }

  lemma {:induction false} ReplaceAt(s: string, from: char, to: char, i: nat)
    requires i < |s|
    ensures Replace(s, from, to)[i] == if s[i] == from then to else s[i]
  {
    if i > 0 {
      ReplaceAt(s[1..], from, to, i - 1);
    }
  }

  lemma {:induction false} ReplaceRemoves(s: string, from: char, to: char)
    requires from != to
    ensures from !in Replace(s, from, to)
  {
    if s != [] {
      ReplaceRemoves(s[1..], from, to);
    }
  }

  lemma {:induction false} ReplaceAbsent(s: string, from: char, to: char)
    requires from !in s
    ensures Replace(s, from, to) == s
  {
    if s != [] {
      ReplaceAbsent(s[1..], from, to);
    }
  }

  lemma {:induction false} ReplaceSame(s: string, c: char)
    ensures Replace(s, c, c) == s
  {
    if s != [] {
      ReplaceSame(s[1..], c);
    }
  }

  /** Replacing `a` by `b` and then `b` by `a` restores a string without `b`. */
  lemma {:induction false} ReplaceBack(s: string, a: char, b: char)
    requires b !in s
    ensures Replace(Replace(s, a, b), b, a) == s
  {
    if s != [] {
      ReplaceBack(s[1..], a, b);
      assert Replace(s, a, b) == [if s[0] == a then b else s[0]] + Replace(s[1..], a, b);
    }
  }

  /** The normalised path has no backslash left. */
  lemma NormaliseNoBackslash(p: string)
    ensures '\\' !in Normalise(p)
  {
    ReplaceRemoves(p, '\\', '/');
  }

  /** Normalising twice is normalising once. */
  lemma NormaliseIdempotent(p: string)
    ensures Normalise(Normalise(p)) == Normalise(p)
  {
    NormaliseNoBackslash(p);
    ReplaceAbsent(Normalise(p), '\\', '/');
  }

  /** A path without a backslash is its own remote form. */
  lemma NormaliseFixesSlashPaths(p: string)
    requires '\\' !in p
    ensures Normalise(p) == p
  {
    ReplaceAbsent(p, '\\', '/');
  }

  /** Character by character, normalisation turns exactly the backslashes into slashes. */
  lemma NormaliseAt(p: string, i: nat)
    requires i < |p|
    ensures Normalise(p)[i] == (if p[i] == '\\' then '/' else p[i])
  {
    ReplaceAt(p, '\\', '/', i);
  }

  /** A path written with the host separator is found again on the host from
      its normalised form: the existence check in the file upload sees the
      file the folder walk produced. */
  lemma NativeRoundTrip(p: string, sep: char)
    requires HostClean(p, sep)
    ensures ToNative(Normalise(p), sep) == p
  {
    if sep == '\\' {
      ReplaceBack(p, '\\', '/');
    } else {
      ReplaceAbsent(p, '\\', '/');
      ReplaceSame(p, '/');
    }
  }

  /** Two distinct host paths never share a remote form. */
  lemma NormaliseInjective(p: string, q: string, sep: char)
    requires HostClean(p, sep) && HostClean(q, sep)
    requires Normalise(p) == Normalise(q)
    ensures p == q
  {
    NativeRoundTrip(p, sep);
    NativeRoundTrip(q, sep);
  }
}

=== FILE: scenarios.dfy ===
/** Clients of `FtpMonitor` that follow the polling loop through whole
    passes, proved from the monitor's contracts alone. */
module Scenarios {
  import opened Paths
  import opened LocalTree
  import opened Transport
  import opened Monitor

  /** A backslash host whose root holds the folder `A` with one file. */
  function Tree(): Local
  {
    Local('\\', {"A"}, map["A\\x.txt" := [1, 2]])
  }

  lemma TreeWellFormed()
    ensures WellFormed(Tree())
  {
  }

  /** With an empty remote root the first snapshot equals the initial empty
      `prev_items`, so the polling loop uploads nothing. */
  method EmptyRemoteUploadsNothing()
  {
    TreeWellFormed();
    var m := new FtpMonitor(Server({}, map[], "", []), Tree());
    assert NoFaults(m.server.faults);
    var pass := m.PollOnce();
    assert TopDirs({}) == {};
    assert pass.Unchanged?;
    assert m.server.dirs == {} && m.server.files == map[];
  }

  lemma FirstPassFacts()
    ensures TopDirs({"B"}) == {"B"}
    ensures NormSet({"A"}) == {"A"}
    ensures Taken(Server({"B"}, map[], "", [])) == {"B"}
    ensures Fresh({"A"}, {"B"}) == {"A"}
  {
    assert TopName("B");
    assert Normalise("A") == "A";
    FreshOfNewFolders({"A"}, {"B"});
  }

  lemma FreshOfNewFolders(planned: set<string>, dirs: set<string>)
    requires forall d :: d in planned ==> Normalise(d) !in dirs
    ensures Fresh(planned, dirs) == planned
  {
  }

  lemma FirstPassFiles()
    ensures TargetMap(Tree(), {"A"}) == map["A/x.txt" := [1, 2]]
  {
    assert Under("A\\x.txt", "A", '\\');
    assert FilesIn(Tree(), {"A"}) == {"A\\x.txt"};
    NormaliseFile();
    assert NormSet({"A\\x.txt"}) == {"A/x.txt"};
    NativeFile();
    assert LocalExists(Tree(), "A/x.txt") && LocalRead(Tree(), "A/x.txt") == [1, 2];
    ReadMapSingle(Tree(), "A/x.txt");
  }

  lemma NativeFile()
    ensures ToNative("A/x.txt", '\\') == "A\\x.txt"
  {
    var p, q := "A/x.txt", "A\\x.txt";
    forall i | 0 <= i < |p| ensures ToNative(p, '\\')[i] == q[i] {
      ReplaceAt(p, '/', '\\', i);
    }
  }

  lemma NormaliseFile()
    ensures Normalise("A\\x.txt") == "A/x.txt"
  {
    var p, q := "A\\x.txt", "A/x.txt";
    forall i | 0 <= i < |p| ensures Normalise(p)[i] == q[i] {
      NormaliseAt(p, i);
    }
  }

  lemma SecondPassFacts(taken: set<string>, dirs: set<string>)
    ensures TopDirs({"B", "A"}) == {"A", "B"}
    ensures NormSet({}) == {} && Fresh({}, taken) == {}
    ensures TargetMap(Tree(), {}) - dirs == map[]
  {
    assert TopName("A") && TopName("B");
    assert FilesIn(Tree(), {}) == {};
  }

  /** A remote root holding `B`: the first pass records `{B}` and creates
      `A` with its file. */
  method UploadMissingFolder() returns (m: FtpMonitor)
    ensures fresh(m) && m.Valid() && m.running && m.connected && m.local == Tree() && m.prevItems == {"B"}
    ensures m.server.dirs == {"B", "A"} && m.server.files == map["A/x.txt" := [1, 2]]
    ensures NoFaults(m.server.faults)
  {
    TreeWellFormed();
    m := new FtpMonitor(Server({"B"}, map[], "", []), Tree());
    assert NoFaults(m.server.faults);
    FirstPassFacts();
    var first := m.PollOnce();
    assert first.Changed?;
    assert first.planned == {"A"};
    FirstPassDirs(first.failed, m.server.dirs);
    FirstPassStore(m.server.files);
  }

  lemma FirstPassStore(files: map<string, Bytes>)
    requires files == map[] + (TargetMap(Tree(), Fresh({"A"}, {"B"})) - {"B"})
    ensures files == map["A/x.txt" := [1, 2]]
  {
    FirstPassFacts();
    FirstPassFiles();
    var stored: map<string, Bytes> := map["A/x.txt" := [1, 2]];
    assert stored - {"B"} == stored;
  }

  lemma FirstPassDirs(failed: set<string>, dirs: set<string>)
    requires failed == {"A"} - Fresh({"A"}, {"B"})
    requires dirs == {"B"} + NormSet({"A"} - failed)
    ensures dirs == {"B", "A"}
  {
    FirstPassFacts();
    assert failed == {};
    assert {"A"} - failed == {"A"};
  }

  /** After that first pass, the second records `{A, B}` and uploads
      nothing; the third sees no change. */
  method SecondPassIsQuiet()
  {
    var m := UploadMissingFolder();
    SecondPassFacts(Taken(m.server), m.server.dirs);
    ghost var before := m.server;
    var second := m.PollOnce();
    assert second.Changed? && second.planned == {};
    NothingPlannedKeepsStore(m.local, before, m.server, ListingScript(true, before.faults), ScanCalls(before), second);
    assert m.server.dirs == before.dirs && m.server.files == before.files;
    var third := m.PollOnce();
    assert third.Unchanged?;
  }

  /** A listing whose first call fails keeps the last snapshot and drops the
      session; the next pass reconnects, completes and records `{B}`. */
  method AbortedPassKeepsSnapshot()
  {
    TreeWellFormed();
    var m := new FtpMonitor(Server({"B"}, map[], "", [false, true]), Tree());
    assert ListingScript(false, [false, true]) == [true] by {
      assert LeadingFaults([false, true]) == 0;
    }
    assert [true][0];
    var first := m.PollOnce();
    assert first.Aborted? && first.scanned == 1 by {
      assert [true][0];
    }
    assert m.prevItems == {} && !m.connected && m.server.dirs == {"B"};
    assert NoFaults(m.server.faults);
    FirstPassFacts();
    var second := m.PollOnce();
    assert second.Changed? && m.prevItems == {"B"};
  }

  /** A remote file `A` blocks the folder `A`: its `mkd` is refused, so the
      folder is not made, although a failure remains later in the script. */
  method FileBlocksFolder()
  {
    TreeWellFormed();
    var remote := Server({}, map["A" := [7]], "", [false, false, false, false, true]);
    BlockedFacts(remote);
    var m := new FtpMonitor(remote, Tree());
    m.prevItems := {"Z"};
    var pass := m.PollOnce();
    assert pass.planned == {"A"};
    assert "A" !in m.server.dirs;
  }

  lemma BlockedFacts(remote: Server)
    requires remote == Server({}, map["A" := [7]], "", [false, false, false, false, true])
    ensures CleanPrefix(ListingScript(false, remote.faults), ScanCalls(remote))
    ensures TopDirs(remote.dirs) == {} && Tree().dirs - {} == {"A"}
    ensures Fresh({"A"}, Taken(remote)) == {} && NormSet({}) == {}
  {
    assert LeadingFaults(remote.faults) == 0;
    assert RootNames({}, map["A" := [7]]) == {"A"};
    assert Taken(remote) == {"A"} && Normalise("A") == "A";
  }

  /** A failure later in the script than the pass reaches does not matter:
      the login, the listing and the `mkd` of the empty folder `A` succeed, so
      `A` is made. */
  method LateFailureUnreached() returns (m: FtpMonitor)
    ensures "A" in m.server.dirs && m.prevItems == {}
  {
    var tree := Local('\\', {"A"}, map[]);
    m := new FtpMonitor(Server({}, map[], "", [false, false, false, true]), tree);
    m.prevItems := {"Z"};
    LateFailureFacts(m.server, tree);
    var pass := m.PollOnce();
    assert pass.Changed? && pass.planned == {"A"};
    assert "A" in m.server.dirs;
  }

  lemma LateFailureFacts(remote: Server, tree: Local)
    requires remote == Server({}, map[], "", [false, false, false, true])
    requires tree == Local('\\', {"A"}, map[])
    ensures WellFormed(tree) && ScanCalls(remote) == 1
    ensures ListingScript(false, remote.faults) == [false, false, true]
    ensures TopDirs(remote.dirs) == {} && Taken(remote) == {}
    ensures Fresh({"A"}, {}) == {"A"} && NormSet({"A"}) == {"A"}
    ensures Budget(1, |tree.files|) == 1
  {
    assert LeadingFaults(remote.faults) == 0;
    assert RootNames({}, map[]) == {};
    assert Normalise("A") == "A";
  }

  /** A script of `n` failed logins and then a success takes `n + 1` attempts. */
  method ConnectAfterFailures(n: nat)
  {
    TreeWellFormed();
    var script := seq(n, _ => true) + [false];
    var m := new FtpMonitor(Server({}, map[], "", script), Tree());
    var attempts := m.Connect();
    LeadingFaultsOfScript(n, []);
    assert script == seq(n, _ => true) + [false] + [];
    assert attempts == n + 1 && m.connected;
  }
}

=== FILE: transport.dfy ===
/** The remote store behind an `ftplib.FTP` session, as a value, and the
    transport calls the monitor makes on it. Each call consumes one entry of
    a script of failures: `true` makes that call raise an `ftplib` error that
    is not a permission error (a dropped connection, a 4xx reply); `false`,
    or an exhausted script, lets the call act on the store. Permission
    errors (`ftplib.error_perm`) come from the store itself. */
module Transport {
  import opened LocalTree

  datatype Reply = Ok | PermError | TempError

  /** `dirs` and `files` hold paths relative to the remote root; `here` is the
      session's current directory, "" for the root. */
  datatype Server = Server(dirs: set<string>, files: map<string, Bytes>, here: string, faults: seq<bool>)

  predicate FaultNow(faults: seq<bool>)
  {
    |faults| > 0 && faults[0]
  }

  function Rest(faults: seq<bool>): seq<bool>
  {
    if faults == [] then [] else faults[1..]
  }

  /** The script after `n` calls. */
  function Drop(faults: seq<bool>, n: nat): seq<bool>
  {
    if n >= |faults| then [] else faults[n..]
  }

  ghost predicate NoFaults(faults: seq<bool>)
  {
    forall i :: 0 <= i < |faults| ==> !faults[i]
  }

  /** The number of failures anywhere in the script. */
  function CountFaults(faults: seq<bool>): (n: nat)
    ensures n <= |faults|
  {
    if faults == [] then 0 else (if faults[0] then 1 else 0) + CountFaults(faults[1..])
  }

  /** The number of failures the script starts with. */
  function LeadingFaults(faults: seq<bool>): (n: nat)
    ensures n <= |faults|
  {
    if faults == [] || !faults[0] then 0 else 1 + LeadingFaults(faults[1..])
  }

  /** A name directly in the root: non-empty, without a slash. */
  predicate TopName(p: string)
  {
    p != "" && '/' !in p
  }

  function Resolve(here: string, name: string): string
  {
    if here == "" then name else here + "/" + name
  }

  /** The directory containing `p` ("" for a top-level name). */
  function Parent(p: string): string
  {
    if p == [] then [] else if p[|p| - 1] == '/' then p[..|p| - 1] else Parent(p[..|p| - 1])
  }

  /** The directories directly in the root. */
  function TopDirs(dirs: set<string>): (r: set<string>)
    ensures r <= dirs
  {
    set d | d in dirs && TopName(d)
  }

  /** The names directly in the root, directories and files alike. */
  function RootNames(dirs: set<string>, files: map<string, Bytes>): (r: set<string>)
    ensures TopDirs(dirs) <= r
  {
    set p | p in dirs + files.Keys && TopName(p)
  }

  /** The names the current directory holds, directories and files alike. */
  function Children(s: Server): set<string>
  {
    if s.here == "" then RootNames(s.dirs, s.files)
    else set p | p in s.dirs + s.files.Keys && |s.here| + 1 < |p| && p[..|s.here| + 1] == s.here + "/" && TopName(p[|s.here| + 1..])
           :: p[|s.here| + 1..]
  }

  /** The paths the store holds, as directories or as files: `mkd` refuses them. */
  function Taken(s: Server): (r: set<string>)
    ensures s.dirs <= r
  {
    s.dirs + s.files.Keys
  }

  /** `ftplib.FTP(host)` followed by `login`: a new session starts at the root. */
  function Login(s: Server): (r: (Server, Reply))
    ensures r.1 == Ok <==> !FaultNow(s.faults)
    ensures r.1 == Ok ==> r.0.here == ""
    ensures r.1 != Ok ==> r.1 == TempError && r.0.here == s.here
    ensures r.0.dirs == s.dirs && r.0.files == s.files && r.0.faults == Rest(s.faults)
  {
    if FaultNow(s.faults) then (s.(faults := Rest(s.faults)), TempError)
    else (s.(here := "", faults := Rest(s.faults)), Ok)
  }

  /** `nlst()`: the names in the current directory, each once. */
  function Nlst(s: Server): (r: (Server, Reply, set<string>))
    ensures r.1 == Ok <==> !FaultNow(s.faults)
    ensures r.1 != Ok ==> r.1 == TempError && r.2 == {}
    ensures r.0 == s.(faults := Rest(s.faults))
    ensures forall n :: n in r.2 ==> TopName(n) && Resolve(s.here, n) in Taken(s)
  {
    if FaultNow(s.faults) then (s.(faults := Rest(s.faults)), TempError, {})
    else
      ChildrenExact(s);
      (s.(faults := Rest(s.faults)), Ok, Children(s))
  }

  /** `cwd(name)`: a name that is not a directory is refused with a permission error. */
  function Cwd(s: Server, name: string): (r: (Server, Reply))
    ensures r.1 == Ok <==> !FaultNow(s.faults) && Resolve(s.here, name) in s.dirs
    ensures r.1 == TempError <==> FaultNow(s.faults)
    ensures r.0.here == if r.1 == Ok then Resolve(s.here, name) else s.here
    ensures r.0.dirs == s.dirs && r.0.files == s.files && r.0.faults == Rest(s.faults)
  {
    if FaultNow(s.faults) then (s.(faults := Rest(s.faults)), TempError)
    else if Resolve(s.here, name) in s.dirs then (s.(here := Resolve(s.here, name), faults := Rest(s.faults)), Ok)
    else (s.(faults := Rest(s.faults)), PermError)
  }

  /** `cwd('..')`. */
  function CwdUp(s: Server): (r: (Server, Reply))
    ensures r.1 == Ok <==> !FaultNow(s.faults)
    ensures r.1 != Ok ==> r.1 == TempError && r.0.here == s.here
    ensures r.1 == Ok ==> r.0.here == Parent(s.here)
    ensures r.0.dirs == s.dirs && r.0.files == s.files && r.0.faults == Rest(s.faults)
  {
    if FaultNow(s.faults) then (s.(faults := Rest(s.faults)), TempError)
    else (s.(here := Parent(s.here), faults := Rest(s.faults)), Ok)
  }

  /** `mkd(path)`: a path the store already holds, as a directory or as a
      file, is refused with a permission error. */
  function Mkd(s: Server, path: string): (r: (Server, Reply))
    ensures r.1 == Ok <==> !FaultNow(s.faults) && Resolve(s.here, path) !in Taken(s)
    ensures r.1 == TempError <==> FaultNow(s.faults)
    ensures r.0.dirs == if r.1 == Ok then s.dirs + {Resolve(s.here, path)} else s.dirs
    ensures r.0.files == s.files && r.0.here == s.here && r.0.faults == Rest(s.faults)
  {
    if FaultNow(s.faults) then (s.(faults := Rest(s.faults)), TempError)
    else if Resolve(s.here, path) in Taken(s) then (s.(faults := Rest(s.faults)), PermError)
    else (s.(dirs := s.dirs + {Resolve(s.here, path)}, faults := Rest(s.faults)), Ok)
  }

  /** `storbinary('STOR ' + path, f)`: creates or overwrites the remote file;
      a path that is a directory is refused with a permission error. */
  function Stor(s: Server, path: string, data: Bytes): (r: (Server, Reply))
    ensures r.1 == Ok <==> !FaultNow(s.faults) && Resolve(s.here, path) !in s.dirs
    ensures r.1 == TempError <==> FaultNow(s.faults)
    ensures r.0.files == if r.1 == Ok then s.files[Resolve(s.here, path) := data] else s.files
    ensures r.0.dirs == s.dirs && r.0.here == s.here && r.0.faults == Rest(s.faults)
  {
    if FaultNow(s.faults) then (s.(faults := Rest(s.faults)), TempError)
    else if Resolve(s.here, path) in s.dirs then (s.(faults := Rest(s.faults)), PermError)
    else (s.(files := s.files[Resolve(s.here, path) := data], faults := Rest(s.faults)), Ok)
  }

  /** A name is listed exactly when it is a plain name that the current
      directory holds, as a directory or as a file. */
  lemma ChildrenExact(s: Server)
    ensures forall n :: n in Children(s) <==> TopName(n) && Resolve(s.here, n) in Taken(s)
  {
    if s.here != "" {
      var h := s.here + "/";
      forall n | TopName(n) && h + n in Taken(s) ensures n in Children(s) {
        var p := h + n;
        assert p[..|h|] == h && p[|h|..] == n;
      }
      forall n | n in Children(s) ensures TopName(n) && h + n in Taken(s) {
        var p :| p in Taken(s) && |h| < |p| && p[..|h|] == h && TopName(p[|h|..]) && n == p[|h|..];
        assert p == p[..|h|] + p[|h|..];
      }
    }
  }

  /** A script of `n` failures followed by a success starts with exactly `n` failures. */
  lemma {:induction false} LeadingFaultsOfScript(n: nat, tail: seq<bool>)
    ensures LeadingFaults(seq(n, _ => true) + [false] + tail) == n
  {
    var s := seq(n, _ => true) + [false] + tail;
    if n > 0 {
      assert s[1..] == seq(n - 1, _ => true) + [false] + tail;
      LeadingFaultsOfScript(n - 1, tail);
    }
  }

  /** After `k` of the leading failures, the next call fails exactly when
      fewer than all of them have been used up. */
  lemma {:induction false} LeadingFaultsAt(faults: seq<bool>, k: nat)
    requires k <= LeadingFaults(faults)
    ensures FaultNow(Drop(faults, k)) <==> k < LeadingFaults(faults)
    ensures Rest(Drop(faults, k)) == Drop(faults, k + 1)
  {
    if k > 0 {
      LeadingFaultsAt(faults[1..], k - 1);
      assert Drop(faults, k) == Drop(faults[1..], k - 1);
      assert Drop(faults, k + 1) == Drop(faults[1..], k);
    }
  }

  /** A script without failures stays so as calls consume it. */
  lemma NoFaultsRest(faults: seq<bool>)
    requires NoFaults(faults)
    ensures NoFaults(Rest(faults)) && !FaultNow(faults)
  {
    if faults != [] {
      assert !faults[0];
    }
  }

  lemma NoFaultsDrop(faults: seq<bool>, n: nat)
    requires NoFaults(faults)
    ensures NoFaults(Drop(faults, n))
  {
    if n < |faults| {
      forall i | 0 <= i < |faults[n..]| ensures !faults[n..][i] {
        assert faults[n..][i] == faults[n + i];
      }
    }
  }

  /** The parent of a top-level name is the root. */
  lemma {:induction false} ParentOfTopName(p: string)
    requires '/' !in p
    ensures Parent(p) == ""
  {
    if p != [] {
      assert p[..|p| - 1] <= p;
      ParentOfTopName(p[..|p| - 1]);
    }
  }

  /** The call after `k` others meets the script from position `k` on; a
      script without failures fails none of them. */
  lemma DropStep(faults: seq<bool>, k: nat)
    ensures Rest(Drop(faults, k)) == Drop(faults, k + 1)
    ensures NoFaults(faults) ==> !FaultNow(Drop(faults, k))
  {
    if NoFaults(faults) && k < |faults| {
      assert Drop(faults, k)[0] == faults[k];
    }
  }

  lemma RestDrop(faults: seq<bool>)
    ensures Rest(faults) == Drop(faults, 1)
  {
  }

  lemma DropDrop(faults: seq<bool>, m: nat, n: nat)
    ensures Drop(Drop(faults, m), n) == Drop(faults, m + n)
  {
  }

  /** None of the first `n` calls meets a failure of the script. */
  ghost predicate CleanPrefix(faults: seq<bool>, n: nat)
  {
    forall i :: 0 <= i < n && i < |faults| ==> !faults[i]
  }

  /** One more call keeps a clean prefix clean exactly when that call does not fail. */
  lemma CleanStep(faults: seq<bool>, k: nat)
    requires CleanPrefix(faults, k)
    ensures CleanPrefix(faults, k + 1) <==> !FaultNow(Drop(faults, k))
  {
    if k < |faults| {
      assert Drop(faults, k)[0] == faults[k];
    }
  }

  /** After `m` clean calls, the next `n` are clean exactly when the script
      left after the first `m` starts with `n` clean calls. */
  lemma CleanDrop(faults: seq<bool>, m: nat, n: nat)
    requires CleanPrefix(faults, m)
    ensures CleanPrefix(faults, m + n) <==> CleanPrefix(Drop(faults, m), n)
  {
    if m < |faults| {
      var rest := Drop(faults, m);
      forall i | 0 <= i < |rest| ensures rest[i] == faults[m + i] {
      }
      if CleanPrefix(rest, n) {
        forall i | m <= i < m + n && i < |faults| ensures !faults[i] {
          assert rest[i - m] == faults[i];
        }
      }
    }
  }

  /** When the first `n` calls are clean, the first call does not fail. */
  lemma CleanFirst(faults: seq<bool>, n: nat)
    requires 0 < n && CleanPrefix(faults, n)
    ensures !FaultNow(faults)
  {
    if faults != [] {
      assert !faults[0];
    }
  }

  /** A prefix of a clean prefix is clean. */
  lemma CleanMono(faults: seq<bool>, m: nat, n: nat)
    requires m <= n && CleanPrefix(faults, n)
    ensures CleanPrefix(faults, m)
  {
  }

  /** A script without failures has every prefix clean. */
  lemma NoFaultsClean(faults: seq<bool>, n: nat)
    requires NoFaults(faults)
    ensures CleanPrefix(faults, n)
  {
  }

  /** The number of failures among the first `n` calls. */
  function FaultsIn(faults: seq<bool>, n: nat): nat
  {
    if n == 0 || faults == [] then 0 else (if faults[0] then 1 else 0) + FaultsIn(faults[1..], n - 1)
  }

  /** The failures of the first `n` calls and those of the script left
      after them make up all the failures of the script. */
  lemma {:induction false} FaultsInSplit(faults: seq<bool>, n: nat)
    ensures FaultsIn(faults, n) + CountFaults(Drop(faults, n)) == CountFaults(faults)
  {
    if n > 0 && faults != [] {
      FaultsInSplit(faults[1..], n - 1);
      assert Drop(faults, n) == Drop(faults[1..], n - 1);
    }
  }

  /** One more call adds one failure exactly when that call fails. */
  lemma {:induction false} FaultsInStep(faults: seq<bool>, n: nat)
    ensures FaultsIn(faults, n + 1) == FaultsIn(faults, n) + (if FaultNow(Drop(faults, n)) then 1 else 0)
  {
    if n > 0 && faults != [] {
      FaultsInStep(faults[1..], n - 1);
      assert Drop(faults, n) == Drop(faults[1..], n - 1);
    }
  }

  /** The first `n` calls are clean exactly when none of them fails. */
  lemma {:induction false} FaultsInClean(faults: seq<bool>, n: nat)
    ensures CleanPrefix(faults, n) <==> FaultsIn(faults, n) == 0
  {
    if n > 0 && faults != [] {
      FaultsInClean(faults[1..], n - 1);
      assert forall i :: 0 <= i < |faults| - 1 ==> faults[1..][i] == faults[i + 1];
      if !CleanPrefix(faults, n) {
        var i :| 0 <= i < n && i < |faults| && faults[i];
        assert i == 0 || !CleanPrefix(faults[1..], n - 1) by {
          if i > 0 {
            assert faults[1..][i - 1];
          }
        }
      }
    }
  }

  /** A call uses up one failure of the script exactly when it fails. */
  lemma CountFaultsRest(faults: seq<bool>)
    ensures CountFaults(Rest(faults)) + (if FaultNow(faults) then 1 else 0) == CountFaults(faults)
  {
  }

  lemma {:induction false} CountFaultsDrop(faults: seq<bool>, n: nat)
    ensures CountFaults(Drop(faults, n)) <= CountFaults(faults)
  {
    if n > 0 && faults != [] {
      CountFaultsDrop(faults[1..], n - 1);
      assert Drop(faults, n) == Drop(faults[1..], n - 1);
    }
  }
}
